=== FILE: README.md ===
# Water drops: a verified model of the collision-and-response engine

`index.js` defines `WaterDropSystem`, a canvas effect in which drops fall
under gravity. They hit the bottom of the canvas or the page's obstacle
elements, which are axis-aligned rectangles with optionally rounded
corners. A large drop splits into two smaller ones when it hits something.
A small drop bounces. This project models the engine's core in Dafny:

- `basics.dfy` holds the points, absolute value, sign, squares, the two
  trigonometric constants and the host square root (`IsSqrt`).
- `drops.dfy` holds the drop record and `createDrop`.
- `geometry.dfy` holds obstacles, `isPositionBlocked` and `getCollisionPoint`.
- `collision.dfy` holds `getCollisionNormal` and `checkCollisionDetailed`.
- `response.dfy` holds `handleCollision`.
- `simulation.dfy` holds one frame of `updateDrops` as a function of the
  drop list.
- `system.dfy` holds the `WaterDropSystem` class. Its fields are the
  configuration, the drop list, the obstacle list, the canvas size, the
  pause and enable flags and the last spawn time. Its methods are the
  constructor, `checkBreakpoint`, the resize and click handlers,
  `updateDrops`, one animation frame, `updateConfig`, `pause`, `resume`,
  `clear` and `destroy`.

Numbers are Dafny `real`s.

- `Math.random()` draws are parameters, each in `[0, 1)`. `Roll` holds the
  draws of one collision and `SpawnDraws` those of an ambient drop.
- `Math.sqrt` is a parameter `sqrt` that is exact on non-negative numbers.
- `Math.cos(π/4)` and `Math.sin(π/4)` are the constants the host computes.
- The window size, the obstacle rectangles and the frame time are
  arguments.

`Simulation.UpdateList`, the loop that `UpdateDrops` runs on the system's
drop list, keeps the source's shape:

- a reverse index loop over the drop list;
- removal of a split or off-screen drop from the list (`splice`);
- in-place replacement of a drop that stays;
- children staged in `newDrops` and appended at the end.

The walk edits a copy of the list, and `UpdateDrops` stores it back. Its
postcondition ties the new list to `Simulation.Tick`. The properties of
a frame are proved about `Tick`.

## Model

| member | source | states |
|---|---|---|
| Drops.CreateDrop | index.js:236-253 | every field is the argument given; gravity is 0.15, the speed cap is 8 and the opacity lies in [0.6, 1); a positive size gives a well-formed drop |
| Drops.AmbientDrop | index.js:236-253 | `createDrop()` with no arguments: x lies in [0, canvas width], y is -20, the size lies in [12, 20), the drop is at rest with no obstacle met and no floor bounce, the colour is the default, and the drop is well formed |
| Geometry.IsPositionBlocked | index.js:152-207 | blocked exactly when some obstacle covers the point: the point is in its closed box and, when the radius is positive, not in a corner wedge beyond the corner circle |
| Geometry.BlockedWithoutRadius | index.js:155-203 | with every radius 0, blocked exactly when the point lies in the closed box of some obstacle |
| Geometry.CoversIsRoundedRectangle | index.js:160-201 | when the radius is at most half of each side, an obstacle covers exactly the points within the radius of its inner rectangle, i.e. its rounded rectangle |
| Geometry.GetCollisionPoint | index.js:359-392 | a contact point lies within the drop's size of its centre on each axis, inside the obstacle's box, and is the drop centre itself when that is inside the box |
| Geometry.NoContactIffDisjoint | index.js:359-371 | there is no contact exactly when the drop's square [x ± size] × [y ± size] and the obstacle's box do not overlap |
| Geometry.ContactIsNearest | index.js:373-391 | the contact point is the point of the box nearest to the drop centre |
| Collision.ReachesBySquares | index.js:295-300 | the corner test `sqrt(dx² + dy²) <= radius + 5` holds exactly when dx² + dy² <= (radius + 5)² |
| Collision.Toward | index.js:271-281 | the circle normal is a curved unit vector on the line through the centre and the contact (zero cross product with the offset), whose components have the signs of the offset from the centre to the contact |
| Collision.CornerNormal | index.js:286-309 | returns a curved normal exactly when the contact is within radius + 5 of some corner centre. The normal belongs to the first such corner in list order: its components have the signs of contact − centre |
| Collision.EdgeNormal | index.js:311-327 | the flat normal is one of the four axis normals. It is up whenever the contact is near the top. Down, left and right are each chosen exactly when that edge is the first near edge in the order top, bottom, left, right |
| Collision.GetCollisionNormal | index.js:256-328 | with no obstacle the normal is flat (0, -1). The normal is curved exactly for circles and for contacts within reach of a corner of a rounded obstacle. A circle's normal is the unit vector from its centre towards the contact: length one, zero cross product with the offset, and the offset's signs. A corner normal points, sign by sign, from the first corner centre in reach to the contact. Otherwise the normal is the flat edge choice `EdgeNormal`, one of the four axis normals |
| Collision.NormalFollowsEntrySide | index.js:311-327 | for a square-cornered box, a drop centred above it gets (0, -1). One centred below a box at least 5 (the tolerance) tall gets (0, 1). One to the left or right, level with the side away from the corners, gets (-1, 0) or (1, 0); the right side needs a box at least 5 wide |
| Collision.FirstObstacleHit | index.js:340-356 | a hit is with a listed obstacle whose id is not in the affected list and with which the drop has contact, at that contact point. There is no hit exactly when no such obstacle exists |
| Collision.CheckCollisionDetailed | index.js:330-357 | a floor collision at (x, height - size) is reported exactly when the drop has not bounced off the floor and reaches it. An obstacle hit is never with an affected id. The result is null exactly when neither the floor nor any eligible obstacle applies |
| Collision.FirstEligibleWins | index.js:341-356 | when the floor does not apply, the reported hit is with the first eligible obstacle in list order |
| Collision.FirstHitAt | index.js:341-356 | the obstacle loop stops at the first eligible obstacle |
| Response.BounceForce | index.js:398-401 | the bounce force lies in [4, 8) |
| Response.CurvedDirection | index.js:522-534 | the curved bounce direction is a unit vector pointing up or level, with the horizontal sign of the reflected velocity |
| Response.HandleCollision | index.js:394-585 | the drop splits exactly when its size exceeds the minimum. Each child has 0.7 of the size, the parent's colour, the extended affected list and the floor flag of this collision. A bounced drop keeps its size, colour and opacity, moves by normal × (size + 2), records the obstacle and remembers a floor bounce. After a flat surface every resulting vy is negative. An unsplit flat bounce leaves at 45°: vy is −sin 45° × bounce force and the horizontal speed is cos 45° × bounce force, rightwards exactly when the direction draw exceeds 0.5 on a top or bottom face, outwards (the sign of normal.x) on a side face. After an unsplit curved bounce the velocity is the reflected velocity, turned upwards and normalised (`CurvedDirection`), times the bounce force: vy <= 0 and the speed equals the force |
| Response.FlatResponse | index.js:416-519 | the flat branch: split or bounce as above, every vy negative. An unsplit drop has vy = −sin 45° × force. It moves, on a face whose normal is mostly vertical, at horizontal speed cos 45° × force, rightwards exactly when the direction draw exceeds 0.5. On any other face its vx has the sign of normal.x and, when normal.x is not zero, that same speed |
| Response.CurvedResponse | index.js:520-584 | the curved branch: split or bounce as above. The two children of a split share a start point, and their velocities are the direction × force plus and minus 0.3 × force along the tangent (−n.y, n.x). An unsplit drop's velocity is the given unit direction times the bounce force, so it moves upwards or level at that speed |
| Response.FlatHorizontalSplitFansOut | index.js:428-447 | on a top or bottom face the children fly left and right at 45°: opposite vx of size cos 45° × bounce force and the same vy, −sin 45° × bounce force. They start exactly half a size to either side of the contact and two sizes above it |
| Response.FlatVerticalSplitMovesOutward | index.js:449-464 | on a side face both children move away from the obstacle at the same vx. The left child rises at sin 45° × force and the right one at 0.7 of that. The left child starts one size above the contact and the right one half a size above it, both two sizes out along the normal |
| Response.CurvedSplitIsSymmetric | index.js:536-566 | for any upward unit direction, both children of a curved split start at contact + normal × (size + 2), and their velocities average to that direction × bounce force. Each child deviates from that average by 0.3 × force along the tangent (−n.y, n.x), in opposite senses |
| Response.CurvedSplitFromCollision | index.js:520-566 | when the normal is curved and the drop exceeds the minimum size, `handleCollision` splits it into two children that both start at contact + normal × (size + 2). Their velocities average to the reflected velocity, turned upwards and normalised (`CurvedDirection`), times the bounce force, and deviate from it by ±0.3 × force along the tangent |
| Response.FloorOnlyOnce | index.js:330-338 | after a floor collision no resulting drop reports the floor again |
| Response.NoSecondHit | index.js:341-345 | after hitting an obstacle no resulting drop reports that obstacle again |
| Simulation.Advance | index.js:595-607 | vy gains gravity but never exceeds the speed cap; x moves by the old vx, y by the new vy; vx decays by 0.98 and never grows; nothing else changes |
| Simulation.UpdateList | index.js:590-627 | walking the list from the end, replacing a drop that stays, removing a culled or split one and appending the collected children gives exactly `Tick` of the list |
| Simulation.StepDrop | index.js:592-623 | a drop is culled exactly when it has no collision and is more than 50 below the canvas. It splits exactly when it collides and exceeds the minimum size, and the two children are exactly the ones `HandleCollision` gives for the advanced drop. A kept drop with no collision is the advanced drop itself. A kept drop that collided is exactly the bounced drop `HandleCollision` gives, so all of its contract carries over: it is moved along the normal, keeps size, colour and opacity, extends its affected list, keeps its floor flag and moves upwards or level (vy <= 0) |
| Simulation.FatesAt | index.js:592-593 | drop i of the list is answered with roll i |
| Simulation.SurvivorsAreKept | index.js:612-623 | the drops that remain in place are exactly the drops whose fate was to stay |
| Simulation.OffspringAreChildren | index.js:612-627 | the appended drops are exactly the children of the drops that split |
| Simulation.OutputCount | index.js:587-628 | survivors plus offspring number the old count, minus the culled drops, plus one per split |
| Simulation.TickCount | index.js:587-628 | the new list's length is the old length minus the culled drops plus the splits |
| Simulation.TickDescends | index.js:587-628 | every drop after a frame has the size, colour and opacity of an old drop, or is 0.7 of the size of an old drop larger than the minimum, in its colour |
| Simulation.TickPreservesWellFormed | index.js:587-628 | a frame keeps every drop well formed |
| Simulation.KeptRemembers | index.js:612-619 | a drop that stays can meet none of its affected obstacles and, once it has bounced off the floor, not the floor |
| WaterDrops.Merge | index.js:30 | each of the seven keys (interval, minimum size, breakpoint, background colour, default and click drop colours, enabled) takes the supplied value when there is one and keeps the current value otherwise |
| WaterDrops.MergeLaws | index.js:684 | merging the same patch twice is merging it once, and an empty patch changes nothing |
| WaterDrops.BreakpointWidth | index.js:32-39 | exactly the six Bootstrap names have a width, each between 0 and 1400 |
| WaterDrops.ShouldEnableMonotone | index.js:84-89 | a wider window never disables what a narrower one enables, and the breakpoint widths are ordered xs ≤ sm ≤ md ≤ lg ≤ xl ≤ xxl |
| WaterDrops.WaterDropSystem.constructor | index.js:2-73 | the configuration is the defaults merged with the options. The canvas has the window's size, the obstacles are those laid out, no drops exist and nothing is paused. The animation runs exactly when the window reaches the breakpoint |
| WaterDrops.WaterDropSystem.CheckBreakpoint | index.js:84-100 | the enable flag becomes "window reaches breakpoint"; switching off empties the drop list; nothing else changes |
| WaterDrops.WaterDropSystem.BeginResize | index.js:109-112 | a resize pauses the animation and changes nothing else |
| WaterDrops.WaterDropSystem.FinishResize | index.js:114-119 | the canvas takes the new size and the obstacles are re-measured. The breakpoint is re-checked, which empties the list when it switches off, and the animation resumes |
| WaterDrops.WaterDropSystem.Click | index.js:122-150 | while enabled, a click on an unblocked point appends a click-coloured drop of size 15 at rest there. Otherwise nothing changes |
| WaterDrops.WaterDropSystem.UpdateDrops | index.js:587-628 | disabled: nothing changes, whatever the draws. Enabled: the drop list becomes `Tick` of the old list. Nothing else changes |
| WaterDrops.WaterDropSystem.AnimateFrame | index.js:663-680 | paused or disabled: nothing changes. Otherwise the frame spawns an ambient drop when the interval has passed, records the time, and the list becomes `Tick` of the drops with the spawn |
| WaterDrops.WaterDropSystem.UpdateConfig | index.js:683-704 | the configuration is merged with the patch. A supplied breakpoint re-checks the window, and a supplied enabled flag then wins. The list empties exactly when the patch disables, or when the breakpoint switches the animation off |
| WaterDrops.WaterDropSystem.Pause | index.js:707-709 | sets the paused flag and nothing else |
| WaterDrops.WaterDropSystem.Resume | index.js:712-714 | clears the paused flag and nothing else |
| WaterDrops.WaterDropSystem.Clear | index.js:717-720 | empties the drop list and nothing else |
| WaterDrops.WaterDropSystem.Destroy | index.js:723-727 | disables the animation and empties the drop list |
| WaterDrops.DisabledStaysEmpty | index.js:663-680 | a disabled, empty system stays empty and disabled through a frame and a click |

## Left out

- Drawing and the canvas are not modelled: `drawDrop`, `applyBackgroundColor`, `clearRect`, and the canvas lookup with its early return when it is missing. They are rendering and DOM access.
- `resizeCanvas`, `updateObstacles` and the event coordinates of `handleClick` are not modelled. Their results arrive as arguments: window size, obstacle rectangles, and click position in canvas coordinates. This includes the random fallback id of an obstacle without an element id.
- `requestAnimationFrame` and the one-second resize debounce are host scheduling. `AnimateFrame` is one frame, `BeginResize` is the resize event and `FinishResize` is the timer callback.
- `init` starts the animation loop only when the system is enabled at construction. The model has no loop to start, so a host that never calls `AnimateFrame` is outside it.
- IEEE-754 doubles are modelled as exact reals, so rounding, infinities and NaN are absent. The sines and cosines are the host's constants.
- Collision.GetCollisionNormal: the source divides by the distance to a circle or corner centre. When the contact point is that centre it yields NaN; the model requires `NormalDefined` instead. This requirement is carried into `HandleCollision`, `StepDrop`, `Tick`, `UpdateDrops` and `AnimateFrame`.
- Drops are values, not shared objects. The source never aliases a drop (each comes fresh from `createDrop`). So the in-place updates of a bouncing drop become replacement of that list element.
- The loop body of `updateDrops` for one drop is the function `Simulation.StepDrop`. `Simulation.UpdateList` walks the list and applies each drop's fate to it.
- The order in which the host's `Math.random()` draws are consumed is not modelled. Each collision and spawn receives its own draws.
- `Response.CurvedResponse` states nothing about the sign of the split children's vy. The sideways deviation (±normal.x × 0.3 × force) can make it positive.
- A split child's floor flag is that of the current collision only. A child of an obstacle hit by a parent that had already bounced off the floor can bounce off the floor again. The model states this as the source does.

=== FILE: basics.dfy ===
/** Numeric helpers shared by the water-drop model: points, absolute value,
    sign, squares, the two trigonometric constants the response uses, and the
    square root, which the host (Math.sqrt) supplies. */
module Basics {

  datatype Option<+T> = None | Some(value: T)

  /** A position on the canvas; y grows downwards. */
  datatype Point = Point(x: real, y: real)

  /** Math.abs */
  function Abs(v: real): (r: real)
    ensures 0.0 <= r
    ensures r == v || r == -v
  {
    if v < 0.0 then -v else v
  }

  /** Math.sign on non-NaN input */
  function Sign(v: real): (r: real)
    ensures r * v == Abs(v)
    ensures r == -1.0 || r == 0.0 || r == 1.0
  {
    if v > 0.0 then 1.0 else if v < 0.0 then -1.0 else 0.0
  }

  /** Math.cos(Math.PI / 4) and Math.sin(Math.PI / 4) as the host evaluates them. */
  const Cos45: real := 0.7071067811865476
  const Sin45: real := 0.7071067811865475

  /** Real multiplication behind a name. Squares are written Sq(a) = Mul(a, a)
      and their properties are proved once, below, from products of two
      independent factors, which the solver handles reliably. */
  function Mul(a: real, b: real): real
  {
    a * b
  }

  function Sq(a: real): real
  {
    Mul(a, a)
  }

  /** The point halfway between a and b; of two velocities, their average. */
  function Midpoint(a: Point, b: Point): Point
  {
    Point((a.x + b.x) / 2.0, (a.y + b.y) / 2.0)
  }

  /** Half the vector from b to a; of two velocities, how far each lies from
      their average. */
  function HalfSpread(a: Point, b: Point): Point
  {
    Point((a.x - b.x) / 2.0, (a.y - b.y) / 2.0)
  }

  /** The vector v stretched by k. */
  function Scaled(v: Point, k: real): Point
  {
    Point(v.x * k, v.y * k)
  }

  function SquaredDistance(p: Point, q: Point): real
  {
    Sq(p.x - q.x) + Sq(p.y - q.y)
  }

  /** The host's Math.sqrt, taken to be exact on non-negative arguments. */
  ghost predicate IsSqrt(sqrt: real -> real)
  {
    forall t :: 0.0 <= t ==> 0.0 <= sqrt(t) && Sq(sqrt(t)) == t
  }

  lemma MulSigns(a: real, b: real)
    ensures 0.0 < a && 0.0 < b ==> 0.0 < Mul(a, b)
    ensures 0.0 <= a && 0.0 <= b ==> 0.0 <= Mul(a, b)
    ensures Mul(-a, -b) == Mul(a, b)
  {
  }

  /** A sign times a positive magnitude has that sign and, unless the sign
      is zero, that magnitude. */
  lemma SignedMagnitude(s: real, k: real)
    requires s == -1.0 || s == 0.0 || s == 1.0
    requires 0.0 < k
    ensures Sign(Mul(s, k)) == s
    ensures s != 0.0 ==> Abs(Mul(s, k)) == k
  {
  }

  lemma MulMonotone(a: real, b: real, c: real)
    requires 0.0 <= c && b <= a
    ensures Mul(b, c) <= Mul(a, c)
  {
  }

  /** A square is non-negative, and positive unless its root is zero. */
  lemma SquareSign(a: real)
    ensures 0.0 <= Sq(a)
    ensures a != 0.0 ==> 0.0 < Sq(a)
    ensures Sq(-a) == Sq(a)
  {
    MulSigns(a, a);
    MulSigns(-a, -a);
  }

  /** Squaring is monotone on non-negative numbers. */
  lemma SquareMonotone(a: real, b: real)
    requires 0.0 <= b <= a
    ensures Sq(b) <= Sq(a)
    ensures b < a ==> Sq(b) < Sq(a)
  {
    MulMonotone(a, b, b);
    MulMonotone(a, b, a);
    assert Mul(a, b) == Mul(b, a);
    if b < a {
      MulSigns(a - b, a);
      assert Mul(a, a) - Mul(b, a) == Mul(a - b, a);
    }
  }

  /** Squares compare as absolute values do. */
  lemma SquareOfAbs(a: real, b: real)
    requires Abs(a) <= Abs(b)
    ensures Sq(a) <= Sq(b)
    ensures Abs(a) < Abs(b) ==> Sq(a) < Sq(b)
  {
    SquareMonotone(Abs(b), Abs(a));
    SquareSign(a);
    SquareSign(b);
  }

  /** The square root of a positive number is positive, so it can divide. */
  lemma SqrtOfPositive(sqrt: real -> real, t: real)
    requires IsSqrt(sqrt)
    requires 0.0 < t
    ensures 0.0 < sqrt(t)
  {
    assert 0.0 <= sqrt(t) && Sq(sqrt(t)) == t;
  }

  /** Two distinct points are a positive squared distance apart. */
  lemma DistinctPointsApart(p: Point, q: Point)
    requires p != q
    ensures 0.0 < SquaredDistance(p, q)
  {
    SquareSign(p.x - q.x);
    SquareSign(p.y - q.y);
  }

  /** Replacing element i keeps the parts before and after it. */
  lemma UpdateKeepsParts<T>(s: seq<T>, i: int, v: T)
    requires 0 <= i < |s|
    ensures s[i := v] == s[..i] + [v] + s[i + 1..]
  {
  }

  /** Dividing a vector by its length gives a unit vector. */
  lemma UnitAfterScaling(a: real, b: real, len: real)
    requires 0.0 < len
    requires Sq(len) == Sq(a) + Sq(b)
    ensures Sq(a / len) + Sq(b / len) == 1.0
  {
    SquareOfQuotient(a, len);
    SquareOfQuotient(b, len);
    SquareSign(len);
    assert Sq(a) / Sq(len) + Sq(b) / Sq(len) == (Sq(a) + Sq(b)) / Sq(len);
  }

  lemma SquareOfQuotient(a: real, b: real)
    requires b != 0.0
    ensures 0.0 < Sq(b)
    ensures Sq(a / b) == Sq(a) / Sq(b)
  {
    var q := a / b;
    assert q * b == a;
    assert Mul(q, q) * Mul(b, b) == Mul(a, a) by {
      assert Mul(q, q) * Mul(b, b) == (q * b) * (q * b);
    }
    SquareSign(b);
  }

  /** Dividing both coordinates by the same length keeps the direction:
      the cross product with the original vector is zero. */
  lemma QuotientsAlong(a: real, b: real, len: real)
    requires len != 0.0
    ensures Mul(a / len, b) == Mul(b / len, a)
  {
    var qa, qb := a / len, b / len;
    assert qa * len == a && qb * len == b;
    assert qa * b == qa * (qb * len) == qb * (qa * len);
  }
}

=== FILE: collision.dfy ===
/** Collision detection: which surface a drop touches this frame
    (checkCollisionDetailed, index.js:330-357) and the surface normal at the
    contact point (getCollisionNormal, index.js:256-328). */
module Collision {
  import opened Basics
  import opened Drops
  import opened Geometry

  /** Distance within which a contact counts as touching an edge or a corner. */
  const Tolerance: real := 5.0

  datatype Surface = Flat | Curved

  /** The outward unit normal at a contact point and the kind of surface hit. */
  datatype Normal = Normal(x: real, y: real, surface: Surface)

  const Up := Normal(0.0, -1.0, Flat)
  const Down := Normal(0.0, 1.0, Flat)
  const LeftSide := Normal(-1.0, 0.0, Flat)
  const RightSide := Normal(1.0, 0.0, Flat)

  /** One detected collision: with the floor, or with an obstacle. */
  datatype Contact = Bottom(point: Point) | Hit(obstacle: Obstacle, point: Point)
  {
    /** The obstacle involved; None for the floor. */
    function ObstacleOf(): Option<Obstacle>
    {
      if Hit? then Some(obstacle) else None
    }
  }

  predicate IsCircle(o: Obstacle)
  {
    o.width == o.height && o.radius >= o.width / 2.0
  }

  function Center(o: Obstacle): Point
  {
    Point(o.x + o.width / 2.0, o.y + o.height / 2.0)
  }

  /** Centres of the four corner arcs: top-left, top-right, bottom-left, bottom-right. */
  function Corners(o: Obstacle): seq<Point>
  {
    var r := o.radius;
    [Point(o.x + r, o.y + r), Point(o.Right() - r, o.y + r),
     Point(o.x + r, o.Bottom() - r), Point(o.Right() - r, o.Bottom() - r)]
  }

  /** The contact lies within radius + tolerance of the corner centre c. */
  predicate Reaches(c: Point, p: Point, radius: real, sqrt: real -> real)
  {
    sqrt(SquaredDistance(p, c)) <= radius + Tolerance
  }

  /** The source's distance test, stated without the square root. */
  lemma ReachesBySquares(c: Point, p: Point, radius: real, sqrt: real -> real)
    requires IsSqrt(sqrt)
    requires 0.0 <= radius
    ensures Reaches(c, p, radius, sqrt) <==> SquaredDistance(p, c) <= Sq(radius + Tolerance)
  {
    var t := SquaredDistance(p, c);
    SquareSign(p.x - c.x);
    SquareSign(p.y - c.y);
    var s := sqrt(t);
    assert 0.0 <= s && Sq(s) == t;
    if s <= radius + Tolerance {
      SquareMonotone(radius + Tolerance, s);
    } else {
      SquareMonotone(s, radius + Tolerance);
    }
  }

  /** The unit vector from `from` towards `to`, as a curved-surface normal:
      of length one, on the line through the two points (zero cross
      product) and pointing, sign by sign, from `from` to `to`. */
  function Toward(from: Point, to: Point, sqrt: real -> real): (n: Normal)
    requires IsSqrt(sqrt)
    requires from != to
    ensures n.surface == Curved
    ensures Sign(n.x) == Sign(to.x - from.x) && Sign(n.y) == Sign(to.y - from.y)
    ensures Sq(n.x) + Sq(n.y) == 1.0
    ensures Mul(n.x, to.y - from.y) == Mul(n.y, to.x - from.x)
  {
    var dx, dy := to.x - from.x, to.y - from.y;
    DistinctPointsApart(to, from);
    SqrtOfPositive(sqrt, SquaredDistance(to, from));
    var length := sqrt(SquaredDistance(to, from));
    DivisionKeepsSign(dx, length);
    DivisionKeepsSign(dy, length);
    UnitAfterScaling(dx, dy, length);
    QuotientsAlong(dx, dy, length);
    Normal(dx / length, dy / length, Curved)
  }

  lemma DivisionKeepsSign(a: real, b: real)
    requires 0.0 < b
    ensures Sign(a / b) == Sign(a)
  {
  }

  /** Corner centre i is the first of cs whose arc the contact point is in
      reach of. */
  predicate FirstInReach(cs: seq<Point>, p: Point, radius: real, sqrt: real -> real, i: int)
  {
    && 0 <= i < |cs|
    && Reaches(cs[i], p, radius, sqrt)
    && forall j :: 0 <= j < i ==> !Reaches(cs[j], p, radius, sqrt)
  }

  /** The first corner arc the contact point is in reach of must not have its
      centre at the contact point itself (the source would divide by zero). */
  predicate CornerSafe(cs: seq<Point>, p: Point, radius: real, sqrt: real -> real)
  {
    forall i :: 0 <= i < |cs| && FirstInReach(cs, p, radius, sqrt, i) ==> cs[i] != p
  }

  /** A corner is first in reach in cs exactly when the next one is first in
      reach in cs with its head dropped, if the head is out of reach. */
  lemma FirstInReachTail(cs: seq<Point>, p: Point, radius: real, sqrt: real -> real, i: int)
    requires cs != [] && !Reaches(cs[0], p, radius, sqrt)
    ensures FirstInReach(cs[1..], p, radius, sqrt, i) <==> FirstInReach(cs, p, radius, sqrt, i + 1)
  {
    if FirstInReach(cs, p, radius, sqrt, i + 1) {
      forall j | 0 <= j < i ensures !Reaches(cs[1..][j], p, radius, sqrt) {
        assert cs[1..][j] == cs[j + 1];
      }
    }
    if FirstInReach(cs[1..], p, radius, sqrt, i) {
      forall j | 0 <= j < i + 1 ensures !Reaches(cs[j], p, radius, sqrt) {
        if j > 0 { assert cs[j] == cs[1..][j - 1]; }
      }
    }
  }

  /** The corner loop of index.js:295-308: the normal away from the first
      corner centre in reach, if any. */
  function CornerNormal(cs: seq<Point>, p: Point, radius: real, sqrt: real -> real): (r: Option<Normal>)
    requires IsSqrt(sqrt)
    requires CornerSafe(cs, p, radius, sqrt)
    ensures r.Some? <==> exists i :: 0 <= i < |cs| && Reaches(cs[i], p, radius, sqrt)
    ensures r.Some? ==> r.value.surface == Curved
    ensures r.Some? ==> exists i :: FirstInReach(cs, p, radius, sqrt, i) &&
                                    Sign(r.value.x) == Sign(p.x - cs[i].x) &&
                                    Sign(r.value.y) == Sign(p.y - cs[i].y)
    decreases |cs|
  {
    if cs == [] then None
    else if Reaches(cs[0], p, radius, sqrt) then
      assert FirstInReach(cs, p, radius, sqrt, 0);
      Some(Toward(cs[0], p, sqrt))
    else
      CornerSafeTail(cs, p, radius, sqrt);
      var r := CornerNormal(cs[1..], p, radius, sqrt);
      CornerNormalTail(cs, p, radius, sqrt, r);
      r
  }

  /** Dropping a head corner that is out of reach keeps the corners safe. */
  lemma CornerSafeTail(cs: seq<Point>, p: Point, radius: real, sqrt: real -> real)
    requires cs != [] && !Reaches(cs[0], p, radius, sqrt)
    requires CornerSafe(cs, p, radius, sqrt)
    ensures CornerSafe(cs[1..], p, radius, sqrt)
  {
    forall i | 0 <= i < |cs[1..]| && FirstInReach(cs[1..], p, radius, sqrt, i) ensures cs[1..][i] != p {
      FirstInReachTail(cs, p, radius, sqrt, i);
    }
  }

  /** What CornerNormal promises for the corners after an out-of-reach head
      it promises for the whole list. */
  lemma CornerNormalTail(cs: seq<Point>, p: Point, radius: real, sqrt: real -> real, r: Option<Normal>)
    requires cs != [] && !Reaches(cs[0], p, radius, sqrt)
    requires r.Some? <==> exists i :: 0 <= i < |cs[1..]| && Reaches(cs[1..][i], p, radius, sqrt)
    requires r.Some? ==> exists i :: FirstInReach(cs[1..], p, radius, sqrt, i) &&
                                     Sign(r.value.x) == Sign(p.x - cs[1..][i].x) &&
                                     Sign(r.value.y) == Sign(p.y - cs[1..][i].y)
    ensures r.Some? <==> exists i :: 0 <= i < |cs| && Reaches(cs[i], p, radius, sqrt)
    ensures r.Some? ==> exists i :: FirstInReach(cs, p, radius, sqrt, i) &&
                                    Sign(r.value.x) == Sign(p.x - cs[i].x) &&
                                    Sign(r.value.y) == Sign(p.y - cs[i].y)
  {
    assert forall i :: 1 <= i < |cs| ==> cs[i] == cs[1..][i - 1];
    if r.Some? {
      var k :| FirstInReach(cs[1..], p, radius, sqrt, k) &&
               Sign(r.value.x) == Sign(p.x - cs[1..][k].x) &&
               Sign(r.value.y) == Sign(p.y - cs[1..][k].y);
      FirstInReachTail(cs, p, radius, sqrt, k);
    }
  }

  predicate Near(a: real, b: real)
  {
    Abs(a - b) < Tolerance
  }

  /** The flat-surface choice of index.js:312-327: the first edge (top,
      bottom, left, right) within tolerance of the contact, else up. The
      result is fully characterised by the edges the contact is near. */
  function EdgeNormal(o: Obstacle, p: Point): (n: Normal)
    ensures n in {Up, Down, LeftSide, RightSide}
    ensures Near(p.y, o.y) ==> n == Up
    ensures n == Down <==> !Near(p.y, o.y) && Near(p.y, o.Bottom())
    ensures n == LeftSide <==> !Near(p.y, o.y) && !Near(p.y, o.Bottom()) && Near(p.x, o.x)
    ensures n == RightSide <==>
              !Near(p.y, o.y) && !Near(p.y, o.Bottom()) && !Near(p.x, o.x) && Near(p.x, o.Right())
  {
    if Near(p.y, o.y) then Up
    else if Near(p.y, o.Bottom()) then Down
    else if Near(p.x, o.x) then LeftSide
    else if Near(p.x, o.Right()) then RightSide
    else Up
  }

  /** The inputs on which getCollisionNormal divides by a non-zero length. */
  predicate NormalDefined(obstacle: Option<Obstacle>, p: Point, sqrt: real -> real)
  {
    match obstacle
    case None => true
    case Some(o) =>
      if IsCircle(o) then p != Center(o)
      else o.radius > 0.0 ==> CornerSafe(Corners(o), p, o.radius, sqrt)
  }

  /** getCollisionNormal: floor, then circle, then corner arcs, then edges. */
  function GetCollisionNormal(obstacle: Option<Obstacle>, p: Point, sqrt: real -> real): (n: Normal)
    requires IsSqrt(sqrt)
    requires NormalDefined(obstacle, p, sqrt)
    ensures obstacle.None? ==> n == Up
    ensures n.surface == Flat ==> n in {Up, Down, LeftSide, RightSide}
    ensures n.surface == Curved <==>
              obstacle.Some? &&
              (IsCircle(obstacle.value) ||
               (obstacle.value.radius > 0.0 &&
                exists i :: 0 <= i < 4 && Reaches(Corners(obstacle.value)[i], p, obstacle.value.radius, sqrt)))
    ensures obstacle.Some? && IsCircle(obstacle.value) ==>
              Sign(n.x) == Sign(p.x - Center(obstacle.value).x) &&
              Sign(n.y) == Sign(p.y - Center(obstacle.value).y) &&
              Sq(n.x) + Sq(n.y) == 1.0 &&
              Mul(n.x, p.y - Center(obstacle.value).y) == Mul(n.y, p.x - Center(obstacle.value).x)
    ensures obstacle.Some? && !IsCircle(obstacle.value) && n.surface == Curved ==>
              var o := obstacle.value;
              exists i :: FirstInReach(Corners(o), p, o.radius, sqrt, i) &&
                          Sign(n.x) == Sign(p.x - Corners(o)[i].x) &&
                          Sign(n.y) == Sign(p.y - Corners(o)[i].y)
    ensures obstacle.Some? && n.surface == Flat ==> n == EdgeNormal(obstacle.value, p)
  {
    match obstacle
    case None => Up
    case Some(o) =>
      if IsCircle(o) then Toward(Center(o), p, sqrt)
      else
        var corner := if o.radius > 0.0 then CornerNormal(Corners(o), p, o.radius, sqrt) else None;
        if corner.Some? then corner.value else EdgeNormal(o, p)
  }

  /** For a square-cornered rectangle the normal names the side the drop
      came from: a drop centred above the box gets (0, -1), one centred below
      a box at least as tall as the tolerance gets (0, 1), and one centred
      left or right of the box, level with its edge away from the corners,
      gets (-1, 0) or (1, 0). */
  lemma NormalFollowsEntrySide(d: Drop, o: Obstacle, sqrt: real -> real)
    requires IsSqrt(sqrt)
    requires WellFormedObstacle(o) && o.radius == 0.0 && 0.0 < o.width
    requires GetCollisionPoint(d, o).Some?
    ensures var p := GetCollisionPoint(d, o).value;
            NormalDefined(Some(o), p, sqrt) &&
            var n := GetCollisionNormal(Some(o), p, sqrt);
            && (d.y < o.y ==> n == Up)
            && (d.y > o.Bottom() && Tolerance <= o.height ==> n == Down)
            && (d.x < o.x && o.y + Tolerance <= d.y <= o.Bottom() - Tolerance ==> n == LeftSide)
            && ((d.x > o.Right() && Tolerance <= o.width &&
                 o.y + Tolerance <= d.y <= o.Bottom() - Tolerance) ==> n == RightSide)
  {
  }

  /** An obstacle the drop may still hit: not yet met, and touching. */
  predicate Eligible(d: Drop, o: Obstacle)
  {
    o.id !in d.affectedObstacles && GetCollisionPoint(d, o).Some?
  }

  /** The obstacle loop of index.js:341-356: the first eligible obstacle in
      list order, with its contact point. */
  function FirstObstacleHit(d: Drop, obstacles: seq<Obstacle>): (r: Option<Contact>)
    ensures r.Some? ==> r.value.Hit? && r.value.obstacle in obstacles &&
                        Eligible(d, r.value.obstacle) &&
                        GetCollisionPoint(d, r.value.obstacle) == Some(r.value.point)
    ensures r.None? <==> forall o :: o in obstacles ==> !Eligible(d, o)
  {
    if obstacles == [] then None
    else
      var o := obstacles[0];
      if o.id in d.affectedObstacles then FirstObstacleHit(d, obstacles[1..])
      else
        match GetCollisionPoint(d, o)
        case Some(p) => Some(Hit(o, p))
        case None => FirstObstacleHit(d, obstacles[1..])
  }

  /** checkCollisionDetailed: the floor first, while the drop has not yet
      bounced off it, then the obstacles. */
  function CheckCollisionDetailed(d: Drop, obstacles: seq<Obstacle>, height: real): (r: Option<Contact>)
    ensures (r.Some? && r.value.Bottom?) <==> !d.hasBouncedBottom && d.y + d.size >= height
    ensures r.Some? && r.value.Bottom? ==> r.value.point == Point(d.x, height - d.size)
    ensures r.Some? && r.value.Hit? ==>
              r.value.obstacle in obstacles && r.value.obstacle.id !in d.affectedObstacles &&
              GetCollisionPoint(d, r.value.obstacle) == Some(r.value.point)
    ensures r.None? <==>
              (d.hasBouncedBottom || d.y + d.size < height) &&
              forall o :: o in obstacles ==> !Eligible(d, o)
  {
    if !d.hasBouncedBottom && d.y + d.size >= height then
      Some(Bottom(Point(d.x, height - d.size)))
    else
      FirstObstacleHit(d, obstacles)
  }

  /** Obstacles are tried in list order: when the floor does not apply, the
      collision reported is with the first eligible obstacle. */
  lemma {:induction false} FirstEligibleWins(d: Drop, obstacles: seq<Obstacle>, height: real, k: nat)
    requires d.hasBouncedBottom || d.y + d.size < height
    requires k < |obstacles| && Eligible(d, obstacles[k])
    requires forall j :: 0 <= j < k ==> !Eligible(d, obstacles[j])
    ensures CheckCollisionDetailed(d, obstacles, height) ==
            Some(Hit(obstacles[k], GetCollisionPoint(d, obstacles[k]).value))
  {
    FirstHitAt(d, obstacles, k);
  }

  lemma {:induction false} FirstHitAt(d: Drop, obstacles: seq<Obstacle>, k: nat)
    requires k < |obstacles| && Eligible(d, obstacles[k])
    requires forall j :: 0 <= j < k ==> !Eligible(d, obstacles[j])
    ensures FirstObstacleHit(d, obstacles) ==
            Some(Hit(obstacles[k], GetCollisionPoint(d, obstacles[k]).value))
  {
    if k > 0 {
      assert !Eligible(d, obstacles[0]);
      var rest := obstacles[1..];
      assert forall j :: 0 <= j < k - 1 ==> rest[j] == obstacles[j + 1];
      FirstHitAt(d, rest, k - 1);
    }
  }
}

=== FILE: drops.dfy ===
/** The drop record and the drop factory (createDrop, index.js:236-253). */
module Drops {

  import opened Basics

  /** The three colour tokens a drop is drawn with; never interpreted here. */
  datatype Color = Color(main: string, shadow: string, highlight: string)

  /** A falling particle. `affectedObstacles` lists the ids of the obstacles
      the drop has already collided with, in the order it met them. */
  datatype Drop = Drop(
    x: real, y: real,
    size: real,
    vx: real, vy: real,
    gravity: real,
    affectedObstacles: seq<string>,
    opacity: real,
    maxSpeed: real,
    hasBouncedBottom: bool,
    color: Color)

  function Position(d: Drop): Point
  {
    Point(d.x, d.y)
  }

  function Velocity(d: Drop): Point
  {
    Point(d.vx, d.vy)
  }

  const Gravity: real := 0.15
  const MaxSpeed: real := 8.0

  /** A value of Math.random(). */
  predicate UnitDraw(u: real)
  {
    0.0 <= u < 1.0
  }

  /** A draw scaled by a non-negative range stays within the range. */
  lemma DrawScales(u: real, range: real)
    requires UnitDraw(u)
    ensures 0.0 <= range ==> 0.0 <= u * range <= range
  {
    if 0.0 <= range {
      assert (1.0 - u) * range >= 0.0;
    }
  }

  /** What every drop made by the factory satisfies, and what the simulation keeps. */
  predicate WellFormed(d: Drop)
  {
    && 0.0 < d.size
    && d.gravity == Gravity
    && d.maxSpeed == MaxSpeed
    && 0.6 <= d.opacity < 1.0
  }

  /** createDrop with every positional argument supplied; `opacityDraw` is the
      Math.random() value the factory always draws for the opacity. */
  function CreateDrop(x: real, y: real, size: real, vx: real, vy: real,
                      affectedObstacles: seq<string>, hasBouncedBottom: bool,
                      color: Color, opacityDraw: real): (d: Drop)
    requires UnitDraw(opacityDraw)
    ensures d.x == x && d.y == y && d.size == size && d.vx == vx && d.vy == vy
    ensures d.affectedObstacles == affectedObstacles
    ensures d.hasBouncedBottom == hasBouncedBottom && d.color == color
    ensures d.gravity == Gravity && d.maxSpeed == MaxSpeed
    ensures 0.6 <= d.opacity < 1.0
    ensures 0.0 < size ==> WellFormed(d)
  {
    Drop(x, y, size, vx, vy, Gravity, affectedObstacles,
         0.6 + opacityDraw * 0.4, MaxSpeed, hasBouncedBottom, color)
  }

  /** The random draws of an ambient spawn: x position, size and opacity. */
  datatype SpawnDraws = SpawnDraws(x: real, size: real, opacity: real)

  predicate ValidSpawnDraws(s: SpawnDraws)
  {
    UnitDraw(s.x) && UnitDraw(s.size) && UnitDraw(s.opacity)
  }

  /** createDrop() called with no arguments: a drop at a random x across the
      canvas, 20 units above its top, at rest, of size in [12, 20), in the
      default colour, with no obstacle met and no floor bounce. */
  function AmbientDrop(canvasWidth: real, defaultColor: Color, draws: SpawnDraws): (d: Drop)
    requires ValidSpawnDraws(draws)
    ensures 0.0 <= canvasWidth ==> 0.0 <= d.x <= canvasWidth
    ensures d.y == -20.0
    ensures 12.0 <= d.size < 20.0
    ensures d.vx == 0.0 && d.vy == 0.0
    ensures d.affectedObstacles == [] && !d.hasBouncedBottom
    ensures d.color == defaultColor
    ensures WellFormed(d)
  {
    DrawScales(draws.x, canvasWidth);
    CreateDrop(draws.x * canvasWidth, -20.0, 12.0 + draws.size * 8.0, 0.0, 0.0,
               [], false, defaultColor, draws.opacity)
  }
}

=== FILE: geometry.dfy ===
/** Obstacles and the two geometric queries on them: whether a point is
    covered (isPositionBlocked, index.js:152-207) and where a drop touches an
    obstacle (getCollisionPoint, index.js:359-392). */
module Geometry {
  import opened Basics
  import opened Drops

  /** An axis-aligned rectangle with top-left corner (x, y) and rounded
      corners of the given radius; `id` is the element id. */
  datatype Obstacle = Obstacle(x: real, y: real, width: real, height: real, radius: real, id: string)
  {
    function Right(): real { x + width }
    function Bottom(): real { y + height }
  }

  /** The shape of an obstacle measured from a laid-out element. */
  predicate WellFormedObstacle(o: Obstacle)
  {
    0.0 <= o.width && 0.0 <= o.height && 0.0 <= o.radius
  }

  /** The closed bounding box of the obstacle. */
  predicate InBounds(o: Obstacle, x: real, y: real)
  {
    o.x <= x <= o.Right() && o.y <= y <= o.Bottom()
  }

  /** The "dead corner" test of index.js:171-196: the point lies in the square
      of one corner (left before right, top before bottom) and farther than
      the radius from that corner's centre. */
  predicate InCornerArea(o: Obstacle, x: real, y: real)
  {
    var r := o.radius;
    var p := Point(x, y);
    if x < o.x + r then
      if y < o.y + r then SquaredDistance(p, Point(o.x + r, o.y + r)) > Sq(r)
      else if y > o.Bottom() - r then SquaredDistance(p, Point(o.x + r, o.Bottom() - r)) > Sq(r)
      else false
    else if x > o.Right() - r then
      if y < o.y + r then SquaredDistance(p, Point(o.Right() - r, o.y + r)) > Sq(r)
      else if y > o.Bottom() - r then SquaredDistance(p, Point(o.Right() - r, o.Bottom() - r)) > Sq(r)
      else false
    else false
  }

  /** One obstacle covers the point. */
  predicate Covers(o: Obstacle, x: real, y: real)
  {
    InBounds(o, x, y) && (o.radius > 0.0 ==> !InCornerArea(o, x, y))
  }

  /** isPositionBlocked: some obstacle of the list covers (x, y). */
  function IsPositionBlocked(obstacles: seq<Obstacle>, x: real, y: real): (b: bool)
    ensures b <==> exists i :: 0 <= i < |obstacles| && Covers(obstacles[i], x, y)
  {
    if obstacles == [] then false
    else if Covers(obstacles[0], x, y) then true
    else
      var b := IsPositionBlocked(obstacles[1..], x, y);
      assert forall i :: 1 <= i < |obstacles| ==> obstacles[i] == obstacles[1..][i - 1];
      b
  }

  /** Clamp v into [lo, hi], testing the lower bound first. */
  function Clamp(v: real, lo: real, hi: real): real
  {
    if v < lo then lo else if v > hi then hi else v
  }

  /** Independent description of a rounded rectangle: the points within
      `radius` of the inner rectangle obtained by shrinking the box by the
      radius on every side. */
  predicate InRoundedRectangle(o: Obstacle, x: real, y: real)
  {
    var r := o.radius;
    var nearest := Point(Clamp(x, o.x + r, o.Right() - r), Clamp(y, o.y + r, o.Bottom() - r));
    SquaredDistance(Point(x, y), nearest) <= Sq(r)
  }

  /** For a square-cornered obstacle blocking is the plain closed box test. */
  lemma BlockedWithoutRadius(obstacles: seq<Obstacle>, x: real, y: real)
    requires forall i :: 0 <= i < |obstacles| ==> obstacles[i].radius == 0.0
    ensures IsPositionBlocked(obstacles, x, y) <==>
              exists i :: 0 <= i < |obstacles| && InBounds(obstacles[i], x, y)
  {
  }

  /** A point within r of another lies within r of it on each axis. */
  lemma OutsideCornerSquare(dx: real, dy: real, r: real)
    requires 0.0 <= r
    requires Sq(dx) + Sq(dy) <= Sq(r)
    ensures -r <= dx <= r && -r <= dy <= r
  {
    if dx > r { SquareMonotone(dx, r); SquareSign(dy); }
    if dx < -r { SquareOfAbs(r, dx); SquareSign(dy); }
    if dy > r { SquareMonotone(dy, r); SquareSign(dx); }
    if dy < -r { SquareOfAbs(r, dy); SquareSign(dx); }
  }

  /** When the corners do not overlap (the radius is at most half of each
      side), an obstacle covers exactly the points of its rounded rectangle:
      the dead-corner test removes precisely the corner wedges outside the
      quarter circles. */
  lemma CoversIsRoundedRectangle(o: Obstacle, x: real, y: real)
    requires WellFormedObstacle(o)
    requires 2.0 * o.radius <= o.width && 2.0 * o.radius <= o.height
    ensures Covers(o, x, y) <==> InRoundedRectangle(o, x, y)
  {
    var r := o.radius;
    var cx := Clamp(x, o.x + r, o.Right() - r);
    var cy := Clamp(y, o.y + r, o.Bottom() - r);
    var dx, dy := x - cx, y - cy;
    assert InRoundedRectangle(o, x, y) <==> Sq(dx) + Sq(dy) <= Sq(r);
    if InRoundedRectangle(o, x, y) {
      OutsideCornerSquare(dx, dy, r);
      assert InBounds(o, x, y);
    }
    if InBounds(o, x, y) {
      assert -r <= dx <= r && -r <= dy <= r;
      SquareOfAbs(dx, r);
      SquareOfAbs(dy, r);
      if cx == x { assert Sq(dx) == 0.0; }
      if cy == y { assert Sq(dy) == 0.0; }
      if x < o.x + r {
        if y < o.y + r {
        } else if y > o.Bottom() - r {
        } else {
          assert !InCornerArea(o, x, y);
        }
      } else if x > o.Right() - r {
        if y < o.y + r {
        } else if y > o.Bottom() - r {
        } else {
          assert !InCornerArea(o, x, y);
        }
      } else {
        assert !InCornerArea(o, x, y);
      }
    }
  }

  /** getCollisionPoint: None when the drop's bounding square misses the
      obstacle's box, otherwise the drop centre clamped onto the box. */
  function GetCollisionPoint(d: Drop, o: Obstacle): (r: Option<Point>)
    ensures r.Some? && 0.0 <= d.size ==> Abs(r.value.x - d.x) <= d.size && Abs(r.value.y - d.y) <= d.size
    ensures r.Some? && WellFormedObstacle(o) ==> InBounds(o, r.value.x, r.value.y)
    ensures r.Some? && InBounds(o, d.x, d.y) ==> r.value == Point(d.x, d.y)
  {
    if d.x + d.size < o.x || d.x - d.size > o.Right() ||
       d.y + d.size < o.y || d.y - d.size > o.Bottom()
    then None
    else Some(Point(Clamp(d.x, o.x, o.Right()), Clamp(d.y, o.y, o.Bottom())))
  }

  function Max(a: real, b: real): real { if a < b then b else a }
  function Min(a: real, b: real): real { if a < b then a else b }

  /** Two closed intervals have a point in common. */
  predicate IntervalsMeet(lo1: real, hi1: real, lo2: real, hi2: real)
  {
    Max(lo1, lo2) <= Min(hi1, hi2)
  }

  /** There is no contact point exactly when the drop's square
      [x - size, x + size] x [y - size, y + size] and the obstacle's box are
      disjoint. */
  lemma NoContactIffDisjoint(d: Drop, o: Obstacle)
    requires 0.0 <= d.size && WellFormedObstacle(o)
    ensures GetCollisionPoint(d, o).None? <==>
              !(IntervalsMeet(d.x - d.size, d.x + d.size, o.x, o.Right()) &&
                IntervalsMeet(d.y - d.size, d.y + d.size, o.y, o.Bottom()))
  {
  }

  /** The contact point is the point of the obstacle's box nearest to the
      drop's centre. */
  lemma ContactIsNearest(d: Drop, o: Obstacle, q: Point)
    requires WellFormedObstacle(o)
    requires GetCollisionPoint(d, o).Some?
    requires InBounds(o, q.x, q.y)
    ensures SquaredDistance(Point(d.x, d.y), GetCollisionPoint(d, o).value) <=
            SquaredDistance(Point(d.x, d.y), q)
  {
    var p := GetCollisionPoint(d, o).value;
    SquareOfAbs(d.x - p.x, d.x - q.x);
    SquareOfAbs(d.y - p.y, d.y - q.y);
  }
}

=== FILE: response.dfy ===
/** The collision response (handleCollision, index.js:394-585): a drop larger
    than the minimum size splits into two smaller drops; a smaller one bounces.
    Flat surfaces send drops up at 45 degrees; curved surfaces reflect the
    velocity about the normal and force it upwards. */
module Response {
  import opened Basics
  import opened Drops
  import opened Geometry
  import opened Collision

  /** The Math.random() values one collision may consume: the bounce force,
      the left/right choice of an unsplit flat bounce, and the opacities of
      the two children of a split. */
  datatype Roll = Roll(bounce: real, direction: real, leftOpacity: real, rightOpacity: real)

  predicate ValidRoll(r: Roll)
  {
    UnitDraw(r.bounce) && UnitDraw(r.direction) && UnitDraw(r.leftOpacity) && UnitDraw(r.rightOpacity)
  }

  /** The outcome for the colliding drop: replaced by two children, or
      updated in place. */
  datatype Outcome = Split(left: Drop, right: Drop) | Bounced(drop: Drop)
  {
    function Results(): seq<Drop>
    {
      if Split? then [left, right] else [drop]
    }
  }

  const MinBounce: real := 4.0
  const MaxBounce: real := 8.0
  /** Children of a split are this fraction of the parent's size. */
  const ShrinkFactor: real := 0.7
  /** Angular deviation of the two children of a curved split. */
  const Deviation: real := 0.3

  function BounceForce(u: real): (f: real)
    requires UnitDraw(u)
    ensures MinBounce <= f < MaxBounce
  {
    MinBounce + u * (MaxBounce - MinBounce)
  }

  /** The drop's affected list with the struck obstacle's id appended. */
  function Extended(d: Drop, c: Contact): seq<string>
  {
    if c.Hit? then d.affectedObstacles + [c.obstacle.id] else d.affectedObstacles
  }

  /** A top or bottom face, as opposed to a left or right one. */
  predicate Horizontal(n: Normal)
  {
    Abs(n.y) > Abs(n.x)
  }

  /** The velocity reflected about the normal: v - 2 (v . n) n. */
  function Reflect(vx: real, vy: real, n: Normal): Point
  {
    var dot := vx * n.x + vy * n.y;
    Point(vx - 2.0 * dot * n.x, vy - 2.0 * dot * n.y)
  }

  /** The direction a curved surface sends the drop: the reflected velocity
      with its vertical part turned upwards, scaled to unit length; straight
      up when the reflected velocity is zero. */
  function CurvedDirection(d: Drop, n: Normal, sqrt: real -> real): (dir: Point)
    requires IsSqrt(sqrt)
    ensures dir.y <= 0.0
    ensures Sq(dir.x) + Sq(dir.y) == 1.0
    ensures Sign(dir.x) == Sign(Reflect(d.vx, d.vy, n).x)
  {
    var rv := Reflect(d.vx, d.vy, n);
    var upward := Abs(rv.y);
    var len2 := Sq(rv.x) + Sq(upward);
    SquareSign(rv.x);
    SquareSign(upward);
    var len := sqrt(len2);
    if len > 0.0 then
      DivisionKeepsSign(rv.x, len);
      DivisionKeepsSign(-upward, len);
      UnitAfterScaling(rv.x, -upward, len);
      Point(rv.x / len, -upward / len)
    else
      assert Sq(len) == len2;
      assert rv.x == 0.0;
      SquareSign(-1.0);
      Point(0.0, -1.0)
  }

  lemma SquareOfProduct(a: real, b: real)
    ensures Sq(a * b) == Sq(a) * Sq(b)
  {
    assert (a * b) * (a * b) == (a * a) * (b * b);
  }

  /** handleCollision. The normal is computed for the struck obstacle (none
      for the floor) at the contact point. */
  function HandleCollision(d: Drop, c: Contact, minDropSize: real, roll: Roll, sqrt: real -> real): (r: Outcome)
    requires ValidRoll(roll) && IsSqrt(sqrt)
    requires NormalDefined(c.ObstacleOf(), c.point, sqrt)
    ensures r.Split? <==> d.size > minDropSize
    ensures r.Split? ==> ChildOf(r.left, d, c) && ChildOf(r.right, d, c)
    ensures r.Bounced? ==> BouncedFrom(r.drop, d, c, GetCollisionNormal(c.ObstacleOf(), c.point, sqrt))
    ensures GetCollisionNormal(c.ObstacleOf(), c.point, sqrt).surface == Flat ==>
              forall e :: e in r.Results() ==> e.vy < 0.0
    ensures GetCollisionNormal(c.ObstacleOf(), c.point, sqrt).surface == Curved && r.Bounced? ==>
              r.drop.vy <= 0.0 &&
              Sq(r.drop.vx) + Sq(r.drop.vy) == Sq(BounceForce(roll.bounce))
    ensures var n := GetCollisionNormal(c.ObstacleOf(), c.point, sqrt);
            n.surface == Curved && r.Bounced? ==>
              Velocity(r.drop) == Scaled(CurvedDirection(d, n, sqrt), BounceForce(roll.bounce))
    ensures var n := GetCollisionNormal(c.ObstacleOf(), c.point, sqrt);
            n.surface == Flat && r.Bounced? ==>
              && Abs(r.drop.vx) == Cos45 * BounceForce(roll.bounce)
              && r.drop.vy == -(Sin45 * BounceForce(roll.bounce))
              && (Horizontal(n) ==> (0.0 < r.drop.vx <==> roll.direction > 0.5))
              && (!Horizontal(n) ==> Sign(r.drop.vx) == Sign(n.x))
  {
    var n := GetCollisionNormal(c.ObstacleOf(), c.point, sqrt);
    if n.surface == Flat then FlatResponse(d, c, n, minDropSize, roll)
    else CurvedResponse(d, c, n, CurvedDirection(d, n, sqrt), minDropSize, roll)
  }

  /** The flat-surface branch of handleCollision (index.js:416-519). */
  function FlatResponse(d: Drop, c: Contact, n: Normal, minDropSize: real, roll: Roll): (r: Outcome)
    requires ValidRoll(roll)
    requires n.surface == Flat
    ensures r.Split? <==> d.size > minDropSize
    ensures r.Split? ==> ChildOf(r.left, d, c) && ChildOf(r.right, d, c)
    ensures r.Bounced? ==> BouncedFrom(r.drop, d, c, n)
    ensures forall e :: e in r.Results() ==> e.vy < 0.0
    ensures r.Bounced? ==> r.drop.vy == -(Sin45 * BounceForce(roll.bounce))
    ensures r.Bounced? && Horizontal(n) ==>
              Abs(r.drop.vx) == Cos45 * BounceForce(roll.bounce) &&
              (0.0 < r.drop.vx <==> roll.direction > 0.5)
    ensures r.Bounced? && !Horizontal(n) ==>
              Sign(r.drop.vx) == Sign(n.x) &&
              (n.x != 0.0 ==> Abs(r.drop.vx) == Cos45 * BounceForce(roll.bounce))
  {
    var force := BounceForce(roll.bounce);
    var ids := Extended(d, c);
    var bottom := c.Bottom?;
    var p := c.point;
    var rise := -Abs(Sin45 * force);
    if d.size > minDropSize then
      var newSize := d.size * ShrinkFactor;
      if Horizontal(n) then
        Split(CreateDrop(p.x - d.size * 0.5, p.y - d.size * 2.0, newSize, -Cos45 * force, rise,
                         ids, bottom, d.color, roll.leftOpacity),
              CreateDrop(p.x + d.size * 0.5, p.y - d.size * 2.0, newSize, Cos45 * force, rise,
                         ids, bottom, d.color, roll.rightOpacity))
      else
        var outward := Sign(n.x) * Cos45 * force;
        Split(CreateDrop(p.x + n.x * d.size * 2.0, p.y - d.size * 1.0, newSize, outward, rise,
                         ids, bottom, d.color, roll.leftOpacity),
              CreateDrop(p.x + n.x * d.size * 2.0, p.y - d.size * 0.5, newSize, outward,
                         -Abs(Sin45 * force * 0.7), ids, bottom, d.color, roll.rightOpacity))
    else
      var direction := if roll.direction > 0.5 then 1.0 else -1.0;
      var speed := Cos45 * force;
      var vx := if Horizontal(n) then Mul(direction, speed) else Mul(Sign(n.x), speed);
      SignedMagnitude(direction, speed);
      SignedMagnitude(Sign(n.x), speed);
      Bounced(Moved(d, n).(vx := vx, vy := rise, affectedObstacles := ids,
                           hasBouncedBottom := d.hasBouncedBottom || bottom))
  }

  /** The curved-surface branch of handleCollision (index.js:520-584), given
      the unit direction of the reflected velocity. */
  function CurvedResponse(d: Drop, c: Contact, n: Normal, dir: Point, minDropSize: real, roll: Roll): (r: Outcome)
    requires ValidRoll(roll)
    requires dir.y <= 0.0 && Sq(dir.x) + Sq(dir.y) == 1.0
    ensures r.Split? <==> d.size > minDropSize
    ensures r.Split? ==> ChildOf(r.left, d, c) && ChildOf(r.right, d, c)
    ensures r.Bounced? ==> BouncedFrom(r.drop, d, c, n)
    ensures r.Bounced? ==> r.drop.vy <= 0.0 &&
                           Sq(r.drop.vx) + Sq(r.drop.vy) == Sq(BounceForce(roll.bounce))
    ensures r.Bounced? ==> Velocity(r.drop) == Scaled(dir, BounceForce(roll.bounce))
  {
    var force := BounceForce(roll.bounce);
    var ids := Extended(d, c);
    var bottom := c.Bottom?;
    var p := c.point;
    if d.size > minDropSize then
      var newSize := d.size * ShrinkFactor;
      var at := Pushed(p, n, d.size + 2.0);
      var v := Scaled(dir, force);
      var spread := Scaled(Tangent(n), Deviation * force);
      Split(CreateDrop(at.x, at.y, newSize, v.x + spread.x, v.y + spread.y,
                       ids, bottom, d.color, roll.leftOpacity),
            CreateDrop(at.x, at.y, newSize, v.x - spread.x, v.y - spread.y,
                       ids, bottom, d.color, roll.rightOpacity))
    else
      SpeedAfterScaling(dir.x, dir.y, force);
      MulSigns(-dir.y, force);
      Bounced(Moved(d, n).(vx := dir.x * force, vy := dir.y * force, affectedObstacles := ids,
                           hasBouncedBottom := d.hasBouncedBottom || bottom))
  }

  /** Scaling a unit vector by f gives a vector of length |f|. */
  lemma SpeedAfterScaling(a: real, b: real, f: real)
    requires Sq(a) + Sq(b) == 1.0
    ensures Sq(a * f) + Sq(b * f) == Sq(f)
  {
    SquareOfProduct(a, f);
    SquareOfProduct(b, f);
    assert Sq(a) * Sq(f) + Sq(b) * Sq(f) == (Sq(a) + Sq(b)) * Sq(f);
  }

  /** The point k away from p along the normal n. */
  function Pushed(p: Point, n: Normal, k: real): Point
  {
    Point(p.x + n.x * k, p.y + n.y * k)
  }

  /** The normal turned a quarter turn: the direction along the surface. */
  function Tangent(n: Normal): Point
  {
    Point(-n.y, n.x)
  }

  /** The drop pushed out along the normal by its size plus two. */
  function Moved(d: Drop, n: Normal): Drop
  {
    d.(x := d.x + n.x * (d.size + 2.0), y := d.y + n.y * (d.size + 2.0))
  }

  /** What a child of a split inherits: 0.7 of the parent's size, its colour,
      the extended affected list, the floor flag of this collision only, and
      the factory's gravity, speed cap and opacity range. */
  predicate ChildOf(e: Drop, d: Drop, c: Contact)
  {
    && e.size == d.size * ShrinkFactor
    && e.color == d.color
    && e.affectedObstacles == Extended(d, c)
    && e.hasBouncedBottom == c.Bottom?
    && e.gravity == Gravity && e.maxSpeed == MaxSpeed
    && 0.6 <= e.opacity < 1.0
  }

  /** An unsplit drop keeps its size, colour, opacity, gravity and speed cap,
      is pushed out along the normal by its size plus two, records the
      obstacle, and remembers a floor bounce. */
  predicate BouncedFrom(e: Drop, d: Drop, c: Contact, n: Normal)
  {
    && e.size == d.size && e.color == d.color && e.opacity == d.opacity
    && e.gravity == d.gravity && e.maxSpeed == d.maxSpeed
    && e.x == d.x + n.x * (d.size + 2.0) && e.y == d.y + n.y * (d.size + 2.0)
    && e.affectedObstacles == Extended(d, c)
    && e.hasBouncedBottom == (d.hasBouncedBottom || c.Bottom?)
  }

  /** On a top or bottom face the two children fly apart symmetrically at 45
      degrees, with the same upward speed, half a size to either side of the contact and two
      sizes above it. */
  lemma FlatHorizontalSplitFansOut(d: Drop, c: Contact, minDropSize: real, roll: Roll, sqrt: real -> real)
    requires ValidRoll(roll) && IsSqrt(sqrt)
    requires NormalDefined(c.ObstacleOf(), c.point, sqrt)
    requires d.size > minDropSize && 0.0 < d.size
    requires var n := GetCollisionNormal(c.ObstacleOf(), c.point, sqrt);
             n.surface == Flat && Horizontal(n)
    ensures var r := HandleCollision(d, c, minDropSize, roll, sqrt);
            && r.left.vx < 0.0 < r.right.vx && r.left.vx == -r.right.vx
            && r.left.vy == r.right.vy == -(Sin45 * BounceForce(roll.bounce))
            && r.right.vx == Cos45 * BounceForce(roll.bounce)
            && r.left.x == c.point.x - 0.5 * d.size && r.right.x == c.point.x + 0.5 * d.size
            && r.left.x < c.point.x < r.right.x
            && r.left.y == r.right.y == c.point.y - 2.0 * d.size
  {
  }

  /** On a left or right face both children move outwards (away from the
      obstacle) at the same horizontal speed, the left one rising faster and
      starting higher. */
  lemma FlatVerticalSplitMovesOutward(d: Drop, c: Contact, minDropSize: real, roll: Roll, sqrt: real -> real)
    requires ValidRoll(roll) && IsSqrt(sqrt)
    requires NormalDefined(c.ObstacleOf(), c.point, sqrt)
    requires d.size > minDropSize && 0.0 < d.size
    requires var n := GetCollisionNormal(c.ObstacleOf(), c.point, sqrt);
             n.surface == Flat && !Horizontal(n)
    ensures var n := GetCollisionNormal(c.ObstacleOf(), c.point, sqrt);
            var r := HandleCollision(d, c, minDropSize, roll, sqrt);
            && Sign(r.left.vx) == Sign(n.x) != 0.0 && r.left.vx == r.right.vx
            && r.left.vy < r.right.vy < 0.0
            && r.left.vy == -(Sin45 * BounceForce(roll.bounce))
            && r.right.vy == -(Sin45 * BounceForce(roll.bounce) * 0.7)
            && r.left.x == r.right.x == c.point.x + n.x * 2.0 * d.size
            && r.left.y == c.point.y - d.size && r.right.y == c.point.y - 0.5 * d.size
            && r.left.y < r.right.y < c.point.y
  {
    var n := GetCollisionNormal(c.ObstacleOf(), c.point, sqrt);
    var force := BounceForce(roll.bounce);
    assert n == LeftSide || n == RightSide;
    assert Abs(Sin45 * force * 0.7) < Abs(Sin45 * force);
  }

  /** The two children of a curved split start at the same point, pushed
      out along the normal, and their velocities are symmetric about the
      unit direction scaled by the bounce force, each deviating from it by
      0.3 of the force along the tangent, in opposite senses. */
  lemma CurvedSplitIsSymmetric(d: Drop, c: Contact, n: Normal, dir: Point, minDropSize: real, roll: Roll)
    requires ValidRoll(roll)
    requires dir.y <= 0.0 && Sq(dir.x) + Sq(dir.y) == 1.0
    requires d.size > minDropSize
    ensures var force := BounceForce(roll.bounce);
            var r := CurvedResponse(d, c, n, dir, minDropSize, roll);
            && r.Split?
            && Position(r.left) == Position(r.right) == Pushed(c.point, n, d.size + 2.0)
            && Midpoint(Velocity(r.left), Velocity(r.right)) == Scaled(dir, force)
            && HalfSpread(Velocity(r.left), Velocity(r.right)) == Scaled(Tangent(n), Deviation * force)
  {
  }

  /** A drop larger than the minimum that hits a rounded corner or a circle
      splits into two children that both start at the contact point pushed
      out along the normal by the size plus two, and whose velocities
      average to the reflected direction scaled by the bounce force and
      differ from it by 0.3 of the force along the surface, one each way. */
  lemma CurvedSplitFromCollision(d: Drop, c: Contact, minDropSize: real, roll: Roll, sqrt: real -> real)
    requires ValidRoll(roll) && IsSqrt(sqrt)
    requires NormalDefined(c.ObstacleOf(), c.point, sqrt)
    requires d.size > minDropSize
    requires GetCollisionNormal(c.ObstacleOf(), c.point, sqrt).surface == Curved
    ensures var n := GetCollisionNormal(c.ObstacleOf(), c.point, sqrt);
            var r := HandleCollision(d, c, minDropSize, roll, sqrt);
            && r.Split?
            && Position(r.left) == Position(r.right) == Pushed(c.point, n, d.size + 2.0)
            && Midpoint(Velocity(r.left), Velocity(r.right)) ==
               Scaled(CurvedDirection(d, n, sqrt), BounceForce(roll.bounce))
            && HalfSpread(Velocity(r.left), Velocity(r.right)) ==
               Scaled(Tangent(n), Deviation * BounceForce(roll.bounce))
  {
    var n := GetCollisionNormal(c.ObstacleOf(), c.point, sqrt);
    CurvedSplitIsSymmetric(d, c, n, CurvedDirection(d, n, sqrt), minDropSize, roll);
  }

  /** A drop that has bounced off the floor never reports a floor collision
      again while it keeps that flag; a split child of a floor collision
      carries the flag too. */
  lemma FloorOnlyOnce(d: Drop, c: Contact, minDropSize: real, roll: Roll, sqrt: real -> real,
                      obstacles: seq<Obstacle>, height: real)
    requires ValidRoll(roll) && IsSqrt(sqrt)
    requires NormalDefined(c.ObstacleOf(), c.point, sqrt)
    requires c.Bottom?
    ensures forall e :: e in HandleCollision(d, c, minDropSize, roll, sqrt).Results() ==>
              var next := CheckCollisionDetailed(e, obstacles, height);
              !(next.Some? && next.value.Bottom?)
  {
  }

  /** Every drop leaving a collision with an obstacle has that obstacle's id
      in its affected list, so no later check reports that obstacle again
      for it. */
  lemma NoSecondHit(d: Drop, c: Contact, minDropSize: real, roll: Roll, sqrt: real -> real,
                    obstacles: seq<Obstacle>, height: real)
    requires ValidRoll(roll) && IsSqrt(sqrt)
    requires NormalDefined(c.ObstacleOf(), c.point, sqrt)
    requires c.Hit?
    ensures forall e :: e in HandleCollision(d, c, minDropSize, roll, sqrt).Results() ==>
              var next := CheckCollisionDetailed(e, obstacles, height);
              !(next.Some? && next.value.Hit? && next.value.obstacle.id == c.obstacle.id)
  {
  }
}

=== FILE: simulation.dfy ===
/** One frame of the physics (updateDrops, index.js:587-628) described as a
    function of the drop list: every drop is advanced, checked for a
    collision and answered; the result lists the drops that remain, in their
    old order, followed by the children of the drops that split. */
module Simulation {
  import opened Basics
  import opened Drops
  import opened Geometry
  import opened Collision
  import opened Response

  /** Horizontal velocity kept per frame. */
  const Drag: real := 0.98
  /** A drop this far below the canvas bottom is discarded. */
  const CullMargin: real := 50.0

  /** Gravity with the speed cap, then the move, then horizontal drag. */
  function Advance(d: Drop): (a: Drop)
    ensures a.vy <= d.maxSpeed
    ensures a.vy == d.vy + d.gravity || (a.vy == d.maxSpeed && d.vy + d.gravity > d.maxSpeed)
    ensures a.x == d.x + d.vx && a.y == d.y + a.vy
    ensures a.vx == Drag * d.vx && Abs(a.vx) <= Abs(d.vx)
    ensures a.(x := d.x, y := d.y, vx := d.vx, vy := d.vy) == d
  {
    var vy := d.vy + d.gravity;
    var vy := if vy > d.maxSpeed then d.maxSpeed else vy;
    d.(x := d.x + d.vx, y := d.y + vy, vx := d.vx * Drag, vy := vy)
  }

  /** What happens to one drop this frame. */
  datatype Fate = Kept(drop: Drop) | Culled | SplitInto(left: Drop, right: Drop)

  /** The drops a fate leaves at the end of the list: the children of a split. */
  function Children(f: Fate): seq<Drop>
  {
    if f.SplitInto? then [f.left, f.right] else []
  }

  /** The normals this drop's collision needs can be computed. */
  predicate StepDefined(d: Drop, obstacles: seq<Obstacle>, height: real, sqrt: real -> real)
  {
    var c := CheckCollisionDetailed(Advance(d), obstacles, height);
    c.Some? ==> NormalDefined(c.value.ObstacleOf(), c.value.point, sqrt)
  }

  predicate TickDefined(ds: seq<Drop>, obstacles: seq<Obstacle>, height: real, sqrt: real -> real)
  {
    forall i :: 0 <= i < |ds| ==> StepDefined(ds[i], obstacles, height, sqrt)
  }

  /** One roll of random draws per drop. */
  predicate ValidRolls(rolls: seq<Roll>, count: int)
  {
    count <= |rolls| && forall i :: 0 <= i < |rolls| ==> ValidRoll(rolls[i])
  }

  /** The loop body of updateDrops for one drop. */
  function StepDrop(d: Drop, obstacles: seq<Obstacle>, height: real, minDropSize: real,
                    roll: Roll, sqrt: real -> real): (f: Fate)
    requires ValidRoll(roll) && IsSqrt(sqrt)
    requires StepDefined(d, obstacles, height, sqrt)
    ensures f.Culled? <==>
              CheckCollisionDetailed(Advance(d), obstacles, height).None? &&
              Advance(d).y - d.size > height + CullMargin
    ensures f.SplitInto? <==>
              CheckCollisionDetailed(Advance(d), obstacles, height).Some? && d.size > minDropSize
    ensures f.SplitInto? ==>
              var c := CheckCollisionDetailed(Advance(d), obstacles, height).value;
              ChildOf(f.left, Advance(d), c) && ChildOf(f.right, Advance(d), c)
    ensures f.Kept? ==>
              && f.drop.size == d.size && f.drop.color == d.color && f.drop.opacity == d.opacity
              && f.drop.gravity == d.gravity && f.drop.maxSpeed == d.maxSpeed
              && d.affectedObstacles <= f.drop.affectedObstacles
              && (d.hasBouncedBottom ==> f.drop.hasBouncedBottom)
    ensures f.Kept? && CheckCollisionDetailed(Advance(d), obstacles, height).None? ==>
              f.drop == Advance(d)
    ensures f.Kept? && CheckCollisionDetailed(Advance(d), obstacles, height).Some? ==>
              var c := CheckCollisionDetailed(Advance(d), obstacles, height).value;
              && BouncedFrom(f.drop, Advance(d), c, GetCollisionNormal(c.ObstacleOf(), c.point, sqrt))
              && f.drop.vy <= 0.0
    ensures f.Kept? && CheckCollisionDetailed(Advance(d), obstacles, height).Some? ==>
              var c := CheckCollisionDetailed(Advance(d), obstacles, height).value;
              HandleCollision(Advance(d), c, minDropSize, roll, sqrt) == Bounced(f.drop)
    ensures f.SplitInto? ==>
              var c := CheckCollisionDetailed(Advance(d), obstacles, height).value;
              HandleCollision(Advance(d), c, minDropSize, roll, sqrt) == Split(f.left, f.right)
  {
    var a := Advance(d);
    match CheckCollisionDetailed(a, obstacles, height)
    case Some(c) =>
      (match HandleCollision(a, c, minDropSize, roll, sqrt)
       case Split(l, r) => SplitInto(l, r)
       case Bounced(b) => Kept(b))
    case None =>
      if a.y - a.size > height + CullMargin then Culled else Kept(a)
  }

  /** The fate of every drop of the list, drop i using roll i. */
  function Fates(ds: seq<Drop>, obstacles: seq<Obstacle>, height: real, minDropSize: real,
                 rolls: seq<Roll>, sqrt: real -> real): (fs: seq<Fate>)
    requires ValidRolls(rolls, |ds|) && IsSqrt(sqrt)
    requires TickDefined(ds, obstacles, height, sqrt)
    ensures |fs| == |ds|
  {
    if ds == [] then []
    else
      [StepDrop(ds[0], obstacles, height, minDropSize, rolls[0], sqrt)] +
      Fates(ds[1..], obstacles, height, minDropSize, rolls[1..], sqrt)
  }

  /** Fate i is the step of drop i with roll i. */
  lemma {:induction false} FatesAt(ds: seq<Drop>, obstacles: seq<Obstacle>, height: real, minDropSize: real,
                                   rolls: seq<Roll>, sqrt: real -> real, i: int)
    requires ValidRolls(rolls, |ds|) && IsSqrt(sqrt)
    requires TickDefined(ds, obstacles, height, sqrt)
    requires 0 <= i < |ds|
    ensures Fates(ds, obstacles, height, minDropSize, rolls, sqrt)[i] ==
            StepDrop(ds[i], obstacles, height, minDropSize, rolls[i], sqrt)
  {
    if i > 0 {
      FatesAt(ds[1..], obstacles, height, minDropSize, rolls[1..], sqrt, i - 1);
    }
  }

  /** The fates of a suffix are the suffix of the fates. */
  lemma {:induction false} FatesSuffix(ds: seq<Drop>, obstacles: seq<Obstacle>, height: real, minDropSize: real,
                                       rolls: seq<Roll>, sqrt: real -> real, k: int)
    requires ValidRolls(rolls, |ds|) && IsSqrt(sqrt)
    requires TickDefined(ds, obstacles, height, sqrt)
    requires 0 <= k <= |ds|
    ensures ValidRolls(rolls[k..], |ds[k..]|) && TickDefined(ds[k..], obstacles, height, sqrt)
    ensures Fates(ds[k..], obstacles, height, minDropSize, rolls[k..], sqrt) ==
            Fates(ds, obstacles, height, minDropSize, rolls, sqrt)[k..]
  {
    if k > 0 {
      FatesSuffix(ds[1..], obstacles, height, minDropSize, rolls[1..], sqrt, k - 1);
      assert ds[1..][k - 1..] == ds[k..];
      assert rolls[1..][k - 1..] == rolls[k..];
    }
  }

  /** The drops that stay in place, in their original order. */
  function Survivors(fs: seq<Fate>): seq<Drop>
  {
    if fs == [] then []
    else (if fs[0].Kept? then [fs[0].drop] else []) + Survivors(fs[1..])
  }

  /** The children of the splits, the last drop's first, as updateDrops
      collects them while it walks the list backwards. */
  function Offspring(fs: seq<Fate>): seq<Drop>
  {
    if fs == [] then []
    else Offspring(fs[1..]) + Children(fs[0])
  }

  /** The survivors are exactly the drops of the Kept fates. */
  lemma {:induction false} SurvivorsAreKept(fs: seq<Fate>)
    ensures forall e :: e in Survivors(fs) ==> exists i :: 0 <= i < |fs| && fs[i] == Kept(e)
    ensures forall i :: 0 <= i < |fs| && fs[i].Kept? ==> fs[i].drop in Survivors(fs)
  {
    if fs != [] {
      SurvivorsAreKept(fs[1..]);
      assert forall i :: 1 <= i < |fs| ==> fs[i] == fs[1..][i - 1];
    }
  }

  /** The offspring are exactly the children of the SplitInto fates. */
  lemma {:induction false} OffspringAreChildren(fs: seq<Fate>)
    ensures forall e :: e in Offspring(fs) ==>
              exists i :: 0 <= i < |fs| && fs[i].SplitInto? && (e == fs[i].left || e == fs[i].right)
    ensures forall i :: 0 <= i < |fs| && fs[i].SplitInto? ==>
              fs[i].left in Offspring(fs) && fs[i].right in Offspring(fs)
  {
    if fs != [] {
      OffspringAreChildren(fs[1..]);
      assert forall i :: 1 <= i < |fs| ==> fs[i] == fs[1..][i - 1];
    }
  }

  /** One step of updateDrops' backward walk. With the drops before i still
      untouched and those after i already processed, applying fate i (the
      drop replaced when kept, removed otherwise) leaves the untouched drops
      before i followed by the survivors from i on; appending its children
      gives the offspring from i on. */
  lemma BackStep(d0: seq<Drop>, fs: seq<Fate>, i: int)
    requires 0 <= i < |d0| && i < |fs|
    ensures var drops := d0[..i + 1] + Survivors(fs[i + 1..]);
            var rest := d0[..i] + Survivors(fs[i..]);
            && drops[i] == d0[i]
            && (fs[i].Kept? ==> drops[i := fs[i].drop] == rest)
            && (!fs[i].Kept? ==> drops[..i] + drops[i + 1..] == rest)
    ensures Offspring(fs[i + 1..]) + Children(fs[i]) == Offspring(fs[i..])
  {
    assert fs[i..][1..] == fs[i + 1..];
    var drops := d0[..i + 1] + Survivors(fs[i + 1..]);
    assert drops[..i] == d0[..i];
    assert drops[i + 1..] == Survivors(fs[i + 1..]);
    if fs[i].Kept? {
      UpdateKeepsParts(drops, i, fs[i].drop);
    }
  }

  /** The drop list after one frame. */
  function Tick(ds: seq<Drop>, obstacles: seq<Obstacle>, height: real, minDropSize: real,
                rolls: seq<Roll>, sqrt: real -> real): seq<Drop>
    requires ValidRolls(rolls, |ds|) && IsSqrt(sqrt)
    requires TickDefined(ds, obstacles, height, sqrt)
  {
    var fs := Fates(ds, obstacles, height, minDropSize, rolls, sqrt);
    Survivors(fs) + Offspring(fs)
  }

  /** The loop of updateDrops over the drop list: walk it from the end,
      replace a kept drop in place, remove a culled or split one, and collect
      the children of the splits, appended once the walk is done. */
  method UpdateList(drops: seq<Drop>, obstacles: seq<Obstacle>, height: real, minDropSize: real,
                    rolls: seq<Roll>, sqrt: real -> real) returns (result: seq<Drop>)
    requires ValidRolls(rolls, |drops|) && IsSqrt(sqrt)
    requires TickDefined(drops, obstacles, height, sqrt)
    ensures result == Tick(drops, obstacles, height, minDropSize, rolls, sqrt)
  {
    ghost var fates := Fates(drops, obstacles, height, minDropSize, rolls, sqrt);
    var ds := drops;
    var newDrops: seq<Drop> := [];
    var i: int := |ds| - 1;
    assert drops[..i + 1] == drops && fates[i + 1..] == [];
    while i >= 0
      invariant -1 <= i < |drops|
      invariant ds == drops[..i + 1] + Survivors(fates[i + 1..])
      invariant newDrops == Offspring(fates[i + 1..])
      decreases i
    {
      FatesAt(drops, obstacles, height, minDropSize, rolls, sqrt, i);
      BackStep(drops, fates, i);
      var fate := StepDrop(ds[i], obstacles, height, minDropSize, rolls[i], sqrt);
      match fate {
        case SplitInto(left, right) =>
          newDrops := newDrops + [left, right];
          ds := ds[..i] + ds[i + 1..];
        case Culled =>
          ds := ds[..i] + ds[i + 1..];
        case Kept(moved) =>
          ds := ds[i := moved];
      }
      assert drops[..i] == drops[..(i - 1) + 1];
      i := i - 1;
    }
    assert fates[0..] == fates;
    result := ds + newDrops;
  }

  function CountCulled(fs: seq<Fate>): nat
  {
    if fs == [] then 0 else (if fs[0].Culled? then 1 else 0) + CountCulled(fs[1..])
  }

  function CountSplit(fs: seq<Fate>): nat
  {
    if fs == [] then 0 else (if fs[0].SplitInto? then 1 else 0) + CountSplit(fs[1..])
  }

  /** Drops are neither lost nor duplicated: the new list has one drop per
      old drop, less the culled ones, plus one more per split. */
  lemma {:induction false} OutputCount(fs: seq<Fate>)
    ensures |Survivors(fs)| + |Offspring(fs)| == |fs| - CountCulled(fs) + CountSplit(fs)
  {
    if fs != [] {
      OutputCount(fs[1..]);
    }
  }

  lemma TickCount(ds: seq<Drop>, obstacles: seq<Obstacle>, height: real, minDropSize: real,
                  rolls: seq<Roll>, sqrt: real -> real)
    requires ValidRolls(rolls, |ds|) && IsSqrt(sqrt)
    requires TickDefined(ds, obstacles, height, sqrt)
    ensures var fs := Fates(ds, obstacles, height, minDropSize, rolls, sqrt);
            |Tick(ds, obstacles, height, minDropSize, rolls, sqrt)| == |ds| - CountCulled(fs) + CountSplit(fs)
  {
    OutputCount(Fates(ds, obstacles, height, minDropSize, rolls, sqrt));
  }

  /** A drop of the new list is a survivor of the same size as some old drop,
      or a child of 0.7 times the size of some old drop larger than the
      minimum size. */
  predicate DescendsFrom(e: Drop, ds: seq<Drop>, minDropSize: real)
  {
    exists i :: 0 <= i < |ds| &&
      ((e.size == ds[i].size && e.color == ds[i].color && e.opacity == ds[i].opacity) ||
       (ds[i].size > minDropSize && e.size == ds[i].size * ShrinkFactor && e.color == ds[i].color))
  }

  lemma TickDescends(ds: seq<Drop>, obstacles: seq<Obstacle>, height: real, minDropSize: real,
                     rolls: seq<Roll>, sqrt: real -> real)
    requires ValidRolls(rolls, |ds|) && IsSqrt(sqrt)
    requires TickDefined(ds, obstacles, height, sqrt)
    ensures forall e :: e in Tick(ds, obstacles, height, minDropSize, rolls, sqrt) ==>
              DescendsFrom(e, ds, minDropSize)
  {
    var fs := Fates(ds, obstacles, height, minDropSize, rolls, sqrt);
    SurvivorsAreKept(fs);
    OffspringAreChildren(fs);
    forall e | e in Tick(ds, obstacles, height, minDropSize, rolls, sqrt)
      ensures DescendsFrom(e, ds, minDropSize)
    {
      if e in Survivors(fs) {
        var i :| 0 <= i < |fs| && fs[i] == Kept(e);
        FatesAt(ds, obstacles, height, minDropSize, rolls, sqrt, i);
        assert e.size == ds[i].size && e.color == ds[i].color && e.opacity == ds[i].opacity;
      } else {
        var i :| 0 <= i < |fs| && fs[i].SplitInto? && (e == fs[i].left || e == fs[i].right);
        FatesAt(ds, obstacles, height, minDropSize, rolls, sqrt, i);
        assert ds[i].size > minDropSize && e.size == ds[i].size * ShrinkFactor && e.color == ds[i].color;
      }
    }
  }

  /** A frame keeps every drop well formed. */
  lemma TickPreservesWellFormed(ds: seq<Drop>, obstacles: seq<Obstacle>, height: real, minDropSize: real,
                                rolls: seq<Roll>, sqrt: real -> real)
    requires ValidRolls(rolls, |ds|) && IsSqrt(sqrt)
    requires TickDefined(ds, obstacles, height, sqrt)
    requires forall i :: 0 <= i < |ds| ==> WellFormed(ds[i])
    ensures forall e :: e in Tick(ds, obstacles, height, minDropSize, rolls, sqrt) ==> WellFormed(e)
  {
    var fs := Fates(ds, obstacles, height, minDropSize, rolls, sqrt);
    SurvivorsAreKept(fs);
    OffspringAreChildren(fs);
    forall e | e in Tick(ds, obstacles, height, minDropSize, rolls, sqrt)
      ensures WellFormed(e)
    {
      if e in Survivors(fs) {
        var i :| 0 <= i < |fs| && fs[i] == Kept(e);
        FatesAt(ds, obstacles, height, minDropSize, rolls, sqrt, i);
        assert WellFormed(ds[i]);
      } else {
        var i :| 0 <= i < |fs| && fs[i].SplitInto? && (e == fs[i].left || e == fs[i].right);
        FatesAt(ds, obstacles, height, minDropSize, rolls, sqrt, i);
        assert WellFormed(ds[i]);
      }
    }
  }

  /** A drop that stays keeps every obstacle it has met, and its floor
      bounce, so it can meet neither again. */
  lemma KeptRemembers(d: Drop, obstacles: seq<Obstacle>, height: real, minDropSize: real,
                      roll: Roll, sqrt: real -> real)
    requires ValidRoll(roll) && IsSqrt(sqrt)
    requires StepDefined(d, obstacles, height, sqrt)
    requires StepDrop(d, obstacles, height, minDropSize, roll, sqrt).Kept?
    ensures var e := StepDrop(d, obstacles, height, minDropSize, roll, sqrt).drop;
            forall o :: o in obstacles && o.id in d.affectedObstacles ==> !Eligible(e, o)
    ensures var e := StepDrop(d, obstacles, height, minDropSize, roll, sqrt).drop;
            d.hasBouncedBottom ==>
              var c := CheckCollisionDetailed(e, obstacles, height);
              !(c.Some? && c.value.Bottom?)
  {
  }
}

=== FILE: system.dfy ===
/** The WaterDropSystem object (index.js:1-728): configuration, breakpoint
    gating, the drop list and the obstacle list, and the operations that
    change them. Drawing, the canvas and the event wiring are outside the
    model; the window size, the laid-out obstacles, the frame time and the
    random draws arrive as arguments. */
module WaterDrops {
  import opened Basics
  import opened Drops
  import opened Geometry
  import opened Collision
  import opened Response
  import opened Simulation

  /** The configuration record (index.js:4-27). */
  datatype Config = Config(
    dropInterval: real,
    minDropSize: real,
    breakpoint: string,
    backgroundColor: string,
    defaultDropColor: Color,
    clickDropColor: Color,
    enabled: bool)

  const DefaultConfig := Config(
    200.0, 3.0, "sm", "transparent",
    Color("rgba(135, 206, 235, ", "rgba(135, 206, 235, 0.5)", "rgba(255, 255, 255, 0.6)"),
    Color("rgba(30, 60, 120, ", "rgba(30, 60, 120, 0.5)", "rgba(100, 150, 255, 0.6)"),
    true)

  /** A partial configuration: the keys the caller supplied. */
  datatype ConfigPatch = ConfigPatch(
    dropInterval: Option<real>,
    minDropSize: Option<real>,
    breakpoint: Option<string>,
    backgroundColor: Option<string>,
    defaultDropColor: Option<Color>,
    clickDropColor: Option<Color>,
    enabled: Option<bool>)

  function Pick<T>(given: Option<T>, current: T): T
  {
    if given.Some? then given.value else current
  }

  /** Object spread { ...config, ...patch }: a supplied key wins. */
  function Merge(c: Config, p: ConfigPatch): (r: Config)
    ensures p.dropInterval.Some? ==> r.dropInterval == p.dropInterval.value
    ensures p.dropInterval.None? ==> r.dropInterval == c.dropInterval
    ensures p.minDropSize.Some? ==> r.minDropSize == p.minDropSize.value
    ensures p.minDropSize.None? ==> r.minDropSize == c.minDropSize
    ensures p.breakpoint.Some? ==> r.breakpoint == p.breakpoint.value
    ensures p.breakpoint.None? ==> r.breakpoint == c.breakpoint
    ensures p.backgroundColor.Some? ==> r.backgroundColor == p.backgroundColor.value
    ensures p.backgroundColor.None? ==> r.backgroundColor == c.backgroundColor
    ensures p.defaultDropColor.Some? ==> r.defaultDropColor == p.defaultDropColor.value
    ensures p.defaultDropColor.None? ==> r.defaultDropColor == c.defaultDropColor
    ensures p.clickDropColor.Some? ==> r.clickDropColor == p.clickDropColor.value
    ensures p.clickDropColor.None? ==> r.clickDropColor == c.clickDropColor
    ensures p.enabled.Some? ==> r.enabled == p.enabled.value
    ensures p.enabled.None? ==> r.enabled == c.enabled
  {
    Config(Pick(p.dropInterval, c.dropInterval), Pick(p.minDropSize, c.minDropSize),
           Pick(p.breakpoint, c.breakpoint), Pick(p.backgroundColor, c.backgroundColor),
           Pick(p.defaultDropColor, c.defaultDropColor), Pick(p.clickDropColor, c.clickDropColor),
           Pick(p.enabled, c.enabled))
  }

  const NoChange := ConfigPatch(None, None, None, None, None, None, None)

  /** Merging is idempotent, and the empty patch changes nothing. */
  lemma MergeLaws(c: Config, p: ConfigPatch)
    ensures Merge(Merge(c, p), p) == Merge(c, p)
    ensures Merge(c, NoChange) == c
  {
  }

  /** The Bootstrap breakpoint widths (index.js:32-39); other names have none. */
  function BreakpointWidth(name: string): (w: Option<real>)
    ensures w.Some? <==> name in {"xs", "sm", "md", "lg", "xl", "xxl"}
    ensures w.Some? ==> 0.0 <= w.value <= 1400.0
  {
    if name == "xs" then Some(0.0)
    else if name == "sm" then Some(576.0)
    else if name == "md" then Some(768.0)
    else if name == "lg" then Some(992.0)
    else if name == "xl" then Some(1200.0)
    else if name == "xxl" then Some(1400.0)
    else None
  }

  /** The window is at least as wide as the breakpoint; comparing with the
      missing width of an unknown name is false. */
  predicate ShouldEnable(breakpoint: string, windowWidth: real)
  {
    var w := BreakpointWidth(breakpoint);
    w.Some? && windowWidth >= w.value
  }

  /** Wider windows enable at least what narrower ones do, and the
      breakpoints are ordered xs <= sm <= md <= lg <= xl <= xxl. */
  lemma ShouldEnableMonotone(breakpoint: string, narrow: real, wide: real)
    requires narrow <= wide
    ensures ShouldEnable(breakpoint, narrow) ==> ShouldEnable(breakpoint, wide)
    ensures ShouldEnable("xxl", narrow) ==> ShouldEnable("xl", narrow)
    ensures ShouldEnable("xl", narrow) ==> ShouldEnable("lg", narrow)
    ensures ShouldEnable("lg", narrow) ==> ShouldEnable("md", narrow)
    ensures ShouldEnable("md", narrow) ==> ShouldEnable("sm", narrow)
    ensures ShouldEnable("sm", narrow) ==> ShouldEnable("xs", narrow)
  {
  }

  /** Time since the last ambient drop exceeds the spawn interval. */
  predicate SpawnDue(currentTime: real, lastDropTime: real, dropInterval: real)
  {
    currentTime - lastDropTime > dropInterval
  }

  class WaterDropSystem {
    var config: Config
    var drops: seq<Drop>
    var obstacles: seq<Obstacle>
    var canvasWidth: real
    var canvasHeight: real
    var animationPaused: bool
    var animationEnabled: bool
    var lastDropTime: real

    /** Construction and init(): merge the options, size the canvas to the
        window, take the laid-out obstacles, then let the breakpoint decide
        whether the animation runs. */
    constructor(options: ConfigPatch, windowWidth: real, windowHeight: real, laidOut: seq<Obstacle>)
      ensures config == Merge(DefaultConfig, options)
      ensures canvasWidth == windowWidth && canvasHeight == windowHeight
      ensures obstacles == laidOut && drops == []
      ensures !animationPaused && lastDropTime == 0.0
      ensures animationEnabled == ShouldEnable(config.breakpoint, windowWidth)
    {
      var merged := Merge(DefaultConfig, options);
      config := merged;
      drops := [];
      obstacles := [];
      animationPaused := false;
      lastDropTime := 0.0;
      animationEnabled := merged.enabled;
      canvasWidth := windowWidth;
      canvasHeight := windowHeight;
      obstacles := laidOut;
      new;
      CheckBreakpoint(windowWidth);
    }

    /** checkBreakpoint: enable exactly when the window reaches the
        breakpoint; turning off discards every drop. */
    method CheckBreakpoint(windowWidth: real)
      modifies this
      ensures animationEnabled == ShouldEnable(config.breakpoint, windowWidth)
      ensures drops == if old(animationEnabled) && !animationEnabled then [] else old(drops)
      ensures config == old(config) && obstacles == old(obstacles)
      ensures canvasWidth == old(canvasWidth) && canvasHeight == old(canvasHeight)
      ensures animationPaused == old(animationPaused) && lastDropTime == old(lastDropTime)
    {
      var shouldEnable := ShouldEnable(config.breakpoint, windowWidth);
      if shouldEnable != animationEnabled {
        animationEnabled := shouldEnable;
        if !animationEnabled {
          drops := [];
        }
      }
    }

    /** The resize handler: animation pauses at once. */
    method BeginResize()
      modifies this
      ensures animationPaused
      ensures drops == old(drops) && animationEnabled == old(animationEnabled)
      ensures config == old(config) && obstacles == old(obstacles)
      ensures canvasWidth == old(canvasWidth) && canvasHeight == old(canvasHeight)
      ensures lastDropTime == old(lastDropTime)
    {
      animationPaused := true;
    }

    /** The debounced resize callback: resize the canvas, re-measure the
        obstacles, re-check the breakpoint and resume. */
    method FinishResize(windowWidth: real, windowHeight: real, laidOut: seq<Obstacle>)
      modifies this
      ensures canvasWidth == windowWidth && canvasHeight == windowHeight
      ensures obstacles == laidOut && !animationPaused
      ensures animationEnabled == ShouldEnable(config.breakpoint, windowWidth)
      ensures drops == if old(animationEnabled) && !animationEnabled then [] else old(drops)
      ensures config == old(config) && lastDropTime == old(lastDropTime)
    {
      canvasWidth := windowWidth;
      canvasHeight := windowHeight;
      obstacles := laidOut;
      CheckBreakpoint(windowWidth);
      animationPaused := false;
    }

    /** The click handler and handleClick: while the animation is enabled, a
        click on an uncovered point adds a click-coloured drop of size 15 at
        rest there. */
    method Click(x: real, y: real, opacityDraw: real)
      requires UnitDraw(opacityDraw)
      modifies this
      ensures animationEnabled && !IsPositionBlocked(obstacles, x, y) ==>
                drops == old(drops) + [CreateDrop(x, y, 15.0, 0.0, 0.0, [], false,
                                                  config.clickDropColor, opacityDraw)]
      ensures !(animationEnabled && !IsPositionBlocked(obstacles, x, y)) ==> drops == old(drops)
      ensures config == old(config) && obstacles == old(obstacles)
      ensures animationEnabled == old(animationEnabled) && animationPaused == old(animationPaused)
      ensures canvasWidth == old(canvasWidth) && canvasHeight == old(canvasHeight)
      ensures lastDropTime == old(lastDropTime)
    {
      if animationEnabled {
        if !IsPositionBlocked(obstacles, x, y) {
          var clickDrop := CreateDrop(x, y, 15.0, 0.0, 0.0, [], false, config.clickDropColor, opacityDraw);
          drops := drops + [clickDrop];
        }
      }
    }

    /** The drops this frame sees in place of `drops`: those drops plus the
        ambient drop spawned this frame, if one is due. */
    function FrameDrops(currentTime: real, draws: SpawnDraws): seq<Drop>
      reads this
      requires ValidSpawnDraws(draws)
    {
      if SpawnDue(currentTime, lastDropTime, config.dropInterval)
      then drops + [AmbientDrop(canvasWidth, config.defaultDropColor, draws)]
      else drops
    }

    /** updateDrops: when enabled, run the walk of Simulation.UpdateList
        over the drop list and store the result. */
    method UpdateDrops(rolls: seq<Roll>, sqrt: real -> real)
      requires IsSqrt(sqrt)
      requires animationEnabled ==> ValidRolls(rolls, |drops|)
      requires animationEnabled ==> TickDefined(drops, obstacles, canvasHeight, sqrt)
      modifies this
      ensures config == old(config) && obstacles == old(obstacles)
      ensures animationEnabled == old(animationEnabled) && animationPaused == old(animationPaused)
      ensures canvasWidth == old(canvasWidth) && canvasHeight == old(canvasHeight)
      ensures lastDropTime == old(lastDropTime)
      ensures drops == if old(animationEnabled)
                       then Tick(old(drops), obstacles, canvasHeight, config.minDropSize, rolls, sqrt)
                       else old(drops)
    {
      if !animationEnabled {
        return;
      }
      drops := UpdateList(drops, obstacles, canvasHeight, config.minDropSize, rolls, sqrt);
    }

    /** One animation frame: unless paused or disabled, spawn an ambient
        drop when the interval has passed, then update the drops. */
    method AnimateFrame(currentTime: real, draws: SpawnDraws, rolls: seq<Roll>, sqrt: real -> real)
      requires ValidSpawnDraws(draws) && IsSqrt(sqrt)
      requires !animationPaused && animationEnabled ==>
                 ValidRolls(rolls, |FrameDrops(currentTime, draws)|) &&
                 TickDefined(FrameDrops(currentTime, draws), obstacles, canvasHeight, sqrt)
      modifies this
      ensures config == old(config) && obstacles == old(obstacles)
      ensures animationEnabled == old(animationEnabled) && animationPaused == old(animationPaused)
      ensures canvasWidth == old(canvasWidth) && canvasHeight == old(canvasHeight)
      ensures old(!animationPaused && animationEnabled) ==>
                drops == Tick(old(FrameDrops(currentTime, draws)), obstacles, canvasHeight,
                              config.minDropSize, rolls, sqrt) &&
                lastDropTime == (if old(SpawnDue(currentTime, lastDropTime, config.dropInterval))
                                 then currentTime else old(lastDropTime))
      ensures old(animationPaused || !animationEnabled) ==>
                drops == old(drops) && lastDropTime == old(lastDropTime)
    {
      if !animationPaused && animationEnabled {
        if SpawnDue(currentTime, lastDropTime, config.dropInterval) {
          drops := drops + [AmbientDrop(canvasWidth, config.defaultDropColor, draws)];
          lastDropTime := currentTime;
        }
        UpdateDrops(rolls, sqrt);
      }
    }

    /** updateConfig: merge the patch; a supplied breakpoint re-checks the
        window; a supplied enabled flag then wins, and disabling clears the
        drops. */
    method UpdateConfig(patch: ConfigPatch, windowWidth: real)
      modifies this
      ensures config == Merge(old(config), patch)
      ensures patch.enabled.Some? ==> animationEnabled == patch.enabled.value
      ensures patch.enabled.None? && patch.breakpoint.Some? ==>
                animationEnabled == ShouldEnable(config.breakpoint, windowWidth)
      ensures patch.enabled.None? && patch.breakpoint.None? ==> animationEnabled == old(animationEnabled)
      ensures drops == if patch.enabled == Some(false) ||
                          (patch.breakpoint.Some? && old(animationEnabled) &&
                           !ShouldEnable(config.breakpoint, windowWidth))
                       then [] else old(drops)
      ensures obstacles == old(obstacles) && animationPaused == old(animationPaused)
      ensures canvasWidth == old(canvasWidth) && canvasHeight == old(canvasHeight)
      ensures lastDropTime == old(lastDropTime)
    {
      config := Merge(config, patch);
      if patch.breakpoint.Some? {
        CheckBreakpoint(windowWidth);
      }
      if patch.enabled.Some? {
        animationEnabled := patch.enabled.value;
        if !animationEnabled {
          drops := [];
        }
      }
    }

    method Pause()
      modifies this
      ensures animationPaused
      ensures drops == old(drops) && animationEnabled == old(animationEnabled)
      ensures config == old(config) && obstacles == old(obstacles)
      ensures canvasWidth == old(canvasWidth) && canvasHeight == old(canvasHeight)
      ensures lastDropTime == old(lastDropTime)
    {
      animationPaused := true;
    }

    method Resume()
      modifies this
      ensures !animationPaused
      ensures drops == old(drops) && animationEnabled == old(animationEnabled)
      ensures config == old(config) && obstacles == old(obstacles)
      ensures canvasWidth == old(canvasWidth) && canvasHeight == old(canvasHeight)
      ensures lastDropTime == old(lastDropTime)
    {
      animationPaused := false;
    }

    method Clear()
      modifies this
      ensures drops == []
      ensures animationEnabled == old(animationEnabled) && animationPaused == old(animationPaused)
      ensures config == old(config) && obstacles == old(obstacles)
      ensures canvasWidth == old(canvasWidth) && canvasHeight == old(canvasHeight)
      ensures lastDropTime == old(lastDropTime)
    {
      drops := [];
    }

    /** destroy: disable, then clear; no frame, click or update moves a drop
        until the animation is enabled again. */
    method Destroy()
      modifies this
      ensures drops == [] && !animationEnabled
      ensures animationPaused == old(animationPaused)
      ensures config == old(config) && obstacles == old(obstacles)
      ensures canvasWidth == old(canvasWidth) && canvasHeight == old(canvasHeight)
      ensures lastDropTime == old(lastDropTime)
    {
      animationEnabled := false;
      Clear();
    }
  }

  /** A disabled system stays empty through frames and clicks. */
  method DisabledStaysEmpty(s: WaterDropSystem, currentTime: real, draws: SpawnDraws,
                            x: real, y: real, opacityDraw: real, sqrt: real -> real)
    requires !s.animationEnabled && s.drops == []
    requires ValidSpawnDraws(draws) && IsSqrt(sqrt) && UnitDraw(opacityDraw)
    modifies s
    ensures s.drops == [] && !s.animationEnabled
  {
    s.AnimateFrame(currentTime, draws, [], sqrt);
    s.Click(x, y, opacityDraw);
  }
}
